=== FILE: README.md ===
# Crop advisory: a verified model of its decision logic

The application is a small agricultural advisory site. Its web pages hold two
crop recommenders and a yield estimator, and a Flask back end predicts
yields. This project models the logic behind them as pure Dafny functions
over exact reals and strings, and proves what each piece promises:

- **Range-based recommender** (`app.js`, module `RangeRecommender`). Each of
  the 23 crops of `CROP_CONDITIONS` gets full credit for each of seven
  inclusive ranges (15+14+14+18+16+14+9 = 100), plus proximity credit on N,
  temperature and pH (7+8+7). The records are stably sorted by score. The
  result is the best crop, a confidence between 60 and 99, and the crops
  ranked second to fourth.
- **Advisory fallback** (`app.js`, module `AdvisoryLookup`). Rice and maize
  have curated content. Every other key gets a generic five-section
  template. It is filled in from the crop's `CROP_DB` entry, or from rice's
  entry when the key is unknown.
- **Yield estimator** (`app.js`, module `YieldEstimator`). The base yield is
  multiplied by these factors:
  - a state factor and a season factor, each 1.0 by default;
  - a clamped rainfall factor;
  - a fertiliser factor capped at 1.3;
  - a temperature penalty with a floor of 0.75;
  - a capped pesticide factor;
  - a random jitter, taken here as a parameter in [0.95, 1.05).

  The module also covers the ordered insight rules of `buildInsights` and
  the pH marker clamp of `updatePH`.
- **Nearest-neighbour recommender** (`static/js/main.js`, module
  `NearestRecommender`). It is the argmin of the normalised L1 distance
  over the 30-row `crops` table, and the earliest row wins a tie.
  - JavaScript numbers are modelled as finite values, the two infinities
    and NaN. That makes the `null` result for a non-finite reading part of
    the model.
- **HTML builders** (`static/js/main.js`, module `Html`): `esc`, `cap`,
  `makeList` and `buildTimeline`.
  - The page builders are modelled as chunk lists (markup, literal text,
    escaped values).
  - The proofs show that stripping the tags and decoding the entities
    gives back exactly the item texts, and that the number of tags does
    not depend on the content.
- **Yield service** (`app.py`, module `YieldService`).
  - `find_closest` first tries an exact, case-insensitive match. Failing
    that, it takes the first entry that contains the query or is contained
    in it.
  - The validation order of `predict`: the required fields, then the area,
    then the crop, then the numeric fields, then the model.
  - The pickled model and Python's `float` are parameters.

Shared pieces:
- `Numeric` holds `Option`, `Abs`, `Min`, `Max`, clamping and rounding.
  `Math.round` is modelled as half-up rounding. Python's `round` is
  modelled as half-even rounding.
- `Text` holds ASCII case mapping, Python's `strip`, and substring search.
- `CropTable` holds `CROP_DB` and `CROP_CONDITIONS`, keyed by an enumeration
  of the 23 crops.

For rice in Punjab in the kharif season, with a jitter of 1.0, the factors
give 3.8 × 1.20 × 1.05 × 1.0 × 7/6 × 1.0 × 1.1 = 6.1446, shown as 6.14
(`YieldEstimator.RicePunjabExample`).

## Model

| member | source | states |
|---|---|---|
| Numeric.RoundHalfUp | app.js:276 | `Math.round`: the integer lies in (x − 0.5, x + 0.5] |
| Numeric.RoundHalfUpMonotone | app.js:276 | rounding half-up is monotone |
| Numeric.RoundHalfEven | app.py:125 | Python `round`: nearest integer, ties go to the even one |
| Numeric.RoundTo2 | app.py:125 | the result has two decimals, lies within 0.005 of the input, and at an exact tie its last digit is even |
| Numeric.Hundredths | app.py:125 | a whole number of hundredths that is the rounded 100 x has two decimals, lies within 0.005 of x, and at an exact tie has an even last digit |
| Numeric.Clamp | app.js:163 | the result lies in [lo, hi], equals x inside, and equals the violated bound outside |
| Text.Lower | app.py:59 | ASCII lower-casing keeps the length and maps each character |
| Text.LowerIdempotent | app.py:59 | lower-casing twice changes nothing more |
| Text.Capitalize | app.js:252 | only the first character is upper-cased; the rest is unchanged |
| Text.CapitalizeIdempotent | app.js:252 | capitalising twice changes nothing more |
| Text.Strip | app.py:59 | the result is no longer than the input, and neither begins nor ends with whitespace |
| Text.StripSlice | app.py:59 | the result is a slice of the input that drops only whitespace at both ends |
| Text.StripIdempotent | app.py:59 | stripping twice changes nothing more |
| Text.StripEmptyIff | app.py:84-92 | a stripped field is empty exactly when it was all whitespace |
| Text.ContainsIff | app.py:65 | Python's `in` on strings holds exactly when the needle occurs at some position |
| Text.ContainsSelfAndEmpty | app.py:65 | every string contains itself and the empty string |
| CropTable.Pos | app.js:194-218 | every crop has a position in the table, which holds that crop |
| CropTable.AllCropsDistinct | app.js:194-218 | the table lists each crop once |
| CropTable.FromKey | app.js:242 | a key found in the table names the crop with that key; a key not found names no crop |
| CropTable.KeyInjective | app.js:168-192 | different crops have different keys |
| CropTable.FromKeyOfKey | app.js:168-192 | looking up a crop's own key finds that crop |
| CropTable.Info | app.js:168-192 | every entry has a positive base yield and a non-empty emoji and scientific name |
| CropTable.InfoOrRice | app.js:242 | a known key gives its own entry and an unknown key gives rice's |
| CropTable.ConditionsOf | app.js:194-218 | every range of every crop has lo ≤ hi; N, T and pH have lo < hi |
| RangeRecommender.ProximityScore | app.js:281-287 | the credit is in [0, 1] and equals 1 exactly inside the range; for lo < hi it is below 0.5 outside the range; the `span \|\| 1` guard covers lo = hi |
| RangeRecommender.ProximityCloser | app.js:283-287 | the partial credit decays with distance: a value no further from the midpoint never earns less |
| RangeRecommender.ProximityPositive | app.js:283-287 | for lo < hi the partial credit is positive exactly while the value is less than the range's full width from its midpoint |
| RangeRecommender.RangeCredit | app.js:261-267 | the range credit is in [0, 100] and reaches 100 exactly when all seven readings are in range |
| RangeRecommender.ProximityCredit | app.js:269-271 | the proximity credit is in [0, 22] and reaches 22 exactly when N, T and pH are in range |
| RangeRecommender.Score | app.js:259-272 | the score is in [0, 122] and reaches 122 exactly when every reading is in range |
| RangeRecommender.Scores | app.js:259-273 | one faithful record per crop, in table order |
| RangeRecommender.Insert | app.js:274 | insertion adds exactly the one record (a multiset equality) |
| RangeRecommender.InsertOrdered | app.js:274 | insertion into a ranked list keeps it ranked |
| RangeRecommender.SortByScore | app.js:274 | the sort is a permutation of its input |
| RangeRecommender.SortByScoreOrdered | app.js:274 | records in table order come out by descending score, ties in table order (a stable sort) |
| RangeRecommender.Ranking | app.js:259-274 | the sorted records are exactly the crops with their scores, in ranking order |
| RangeRecommender.Confidence | app.js:276 | the confidence is an integer in [60, 99] for any non-negative score, within 0.5 of min(99, 60 + score / 100 × 39) |
| RangeRecommender.ConfidenceMonotone | app.js:276 | a higher top score never lowers the confidence, and a score of 99 or more gives 99 |
| RangeRecommender.RankingDistinct | app.js:274-277 | no crop appears twice in the ranking |
| RangeRecommender.RecommendCrop | app.js:256-278 | the confidence is in [60, 99]; there are exactly three alternatives, pairwise distinct and all different from the best crop |
| RangeRecommender.BestIsFirstMaximum | app.js:274-276 | the best crop has a score at least every other crop's, precedes every other crop in the stable order, and sets the confidence |
| RangeRecommender.AlternativesInOrder | app.js:277 | the best crop and the three alternatives follow each other in ranking order |
| RangeRecommender.AlternativesAheadOfRest | app.js:277 | every other crop ranks after the third alternative |
| RangeRecommender.BestWhenAllInRange | app.js:259-276 | a reading inside all ranges of some crop yields the first such crop, scoring 122 with confidence 99 |
| RangeRecommender.RiceReadingRecommendsRice | app.js:195 | a reading inside all of rice's ranges recommends rice |
| AdvisoryLookup.Curated | app.js:222-237 | curated content exists for rice and maize only |
| AdvisoryLookup.GetAdvisory | app.js:240-250 | rice and maize get their curated advisories unchanged; any other key gets the generic template with the crop's metadata, or rice's metadata for an unknown key; every result is complete: five sections, each with a non-empty title, a non-empty body and three non-empty bullet headings |
| AdvisoryLookup.GenericOverview | app.js:244 | the generic overview names the capitalised key with the emoji and scientific name of the table entry |
| AdvisoryLookup.CuratedComplete | app.js:222-237 | both curated advisories are complete |
| AdvisoryLookup.GenericComplete | app.js:243-249 | the generic template is complete for any key and metadata |
| AdvisoryLookup.AdvisoryMetadata | app.js:241-244 | a tabled crop other than rice and maize gets its own emoji; an unknown key gets rice's |
| AdvisoryLookup.AdvisoryOfCrop | app.js:241-249 | the advisory of a recommended crop other than rice and maize is the template filled with that crop's metadata |
| YieldEstimator.StateFactor | app.js:397-403 | an unknown state gives 1.0; every factor is in [0.85, 1.2] |
| YieldEstimator.SeasonFactor | app.js:404 | an unknown season gives 1.0; every factor is in [0.9, 1.1] |
| YieldEstimator.RainFactor | app.js:441-442 | the rain factor is in [0.7, 1.15] and is rainfall/1200 between 840 and 1380 mm |
| YieldEstimator.RainFactorMonotone | app.js:441-442 | more rain never lowers the rain factor |
| YieldEstimator.FertiliserFactor | app.js:445-446 | the factor is in [1, 1.3] for non-negative input and capped at 1.3 from 180 kg |
| YieldEstimator.FertiliserFactorMonotone | app.js:445-446 | more fertiliser never lowers the factor |
| YieldEstimator.TemperatureFactor | app.js:449-451 | the factor is in [0.75, 1] and equals 1 exactly at 26 °C |
| YieldEstimator.TemperatureFactorMonotone | app.js:449-451 | moving away from 26 °C never raises the factor, and lowers it strictly above the floor |
| YieldEstimator.PesticideFactor | app.js:454 | the factor is in [1, 1.1] for non-negative input and capped from 10 kg |
| YieldEstimator.FactorsOf | app.js:436-457 | each of the seven multipliers lies between its lowest and highest value |
| YieldEstimator.ProductWithin | app.js:458 | bounds on every multiplier bound their product |
| YieldEstimator.ProductMonotoneAt | app.js:458 | raising one non-negative multiplier never lowers the product |
| YieldEstimator.ExtremeAdjustments | app.js:436-458 | the product of all factors ranges between about 0.38 and 2.28 |
| YieldEstimator.AdjustmentBounds | app.js:436-458 | for non-negative inputs the product of the factors stays within those extremes |
| YieldEstimator.YieldMonotoneInFertiliser | app.js:445-458 | more fertiliser never lowers the estimate |
| YieldEstimator.RoundEstimate | app.js:458-463 | the shown yield has two decimals and is within 0.005 of the unrounded one; the total has one decimal and is within 0.05 of yield × area; the gauge is at most 100, is exactly 100 once the yield reaches 1.6 × base, and in every case within 0.5 of min(100, yield / (1.6 × base) × 100) |
| YieldEstimator.EstimateYield | app.js:431-463 | the shown yield has two decimals and the total one; the yield lies between base × 0.38 and base × 2.28 (up to rounding); the gauge is in [0, 100], 100 once the yield reaches 1.6 × base, and always within 0.5 of min(100, yield / (1.6 × base) × 100) |
| YieldEstimator.YieldBounds | app.js:436-458 | the unrounded yield is positive and between base × the lowest and base × the highest product |
| YieldEstimator.RicePunjabExample | app.js:431-463 | rice in Punjab in the kharif season is shown as 6.14 t/ha and 12.3 t on 2 ha, with a full gauge |
| YieldEstimator.RiceRajasthanExample | app.js:431-463 | rice in Rajasthan in the zaid season on 1 ha with 1200 mm rain and 26 °C is shown as 2.91 t/ha and 2.9 t, with the gauge at 48 |
| YieldEstimator.FavouredStates | app.js:498 | only Haryana and Punjab count as high-yielding states |
| YieldEstimator.FiredSorted | app.js:492-498 | the rules fire in the order they are written |
| YieldEstimator.FiredMember | app.js:492-498 | a rule's line appears exactly when its condition holds |
| YieldEstimator.FiredEmpty | app.js:492-498 | nothing fires exactly when every condition is false |
| YieldEstimator.Rules | app.js:492-497 | at most four threshold lines, in rule order, none exactly when no rule applies |
| YieldEstimator.AtMostFour | app.js:492-497 | of seven rules whose first six form three pairs that never both apply, at most four apply |
| YieldEstimator.BuildInsights | app.js:489-501 | 2 to 5 lines in rule order; the favourable line appears exactly when no threshold rule fires; the predicted yield is always last |
| YieldEstimator.ResultInsights | app.js:431-486 | the insights shown for a crop end with the shown yield of its estimate, a two-decimal value within 0.005 of the unrounded yield, and hold the favourable line exactly when no rule fires |
| YieldEstimator.InsightsFollowRules | app.js:492-498 | each threshold line is shown exactly when its condition holds |
| YieldEstimator.InsightThresholds | app.js:492-498 | the seven thresholds, spelled out as if-and-only-if conditions |
| YieldEstimator.PhIndicatorLeft | app.js:159-164 | the marker position is in [0, 100], linear on [3.5, 9.5] and clamped outside |
| YieldEstimator.PhIndicatorMonotone | app.js:159-164 | a higher pH never moves the marker left |
| NearestRecommender.Term | static/js/main.js:58-64 | each term of a finite reading is finite, non-negative, and zero exactly at the profile value; NaN stays NaN; an infinity gives +∞ |
| NearestRecommender.DistanceFinite | static/js/main.js:57-64 | with finite readings and positive profile values, the distance is defined and ≥ 0 |
| NearestRecommender.DistanceZero | static/js/main.js:57-64 | the distance is 0 exactly when the reading equals the profile |
| NearestRecommender.DistanceNotFinite | static/js/main.js:57-64 | a non-finite reading gives NaN or +∞, and NaN when some value is NaN |
| NearestRecommender.ScoreCases | static/js/main.js:57-66 | a finite reading scores a finite distance; a non-finite reading's score is never below the initial infinity |
| NearestRecommender.FirstNearest | static/js/main.js:52-71 | a row is returned exactly when the table is non-empty and the reading finite; it has the least distance and every earlier row is strictly farther |
| NearestRecommender.PredictCrop | static/js/main.js:50-74 | a name is returned exactly for a finite reading, and it is the name of the first nearest crop |
| NearestRecommender.ProfilesDistinct | static/js/main.js:15-46 | no two rows of the table share a profile |
| NearestRecommender.MatchesProfile | static/js/main.js:57-64 | a profile's own values match another profile exactly when the two profiles are equal |
| NearestRecommender.FirstNearestUnique | static/js/main.js:66-69 | there is at most one first nearest row |
| NearestRecommender.ExactRowWins | static/js/main.js:55-71 | in a table of distinct rows, a reading equal to a row picks that row and no other |
| NearestRecommender.ExactProfileWins | static/js/main.js:15-71 | a reading equal to a crop's profile recommends that crop and no other |
| Html.ReplaceAll | static/js/main.js:424 | replacing a character that does not occur changes nothing |
| Html.EscapeText | static/js/main.js:424 | the output contains no `<`, `>` or `"`, and every `&` begins one of the four entities |
| Html.ReplacePassesEscape | static/js/main.js:424 | the four chained global replacements equal one pass that escapes character by character |
| Html.Esc | static/js/main.js:422-425 | `null` or `undefined` gives ''; otherwise the escaped text, free of markup characters |
| Html.UnescapeEscape | static/js/main.js:424 | decoding the four entities after escaping gives back the text |
| Html.EscRoundTrip | static/js/main.js:422-425 | decoding `esc(v)` gives back the value's text |
| Html.Cap | static/js/main.js:421 | a missing or empty value gives ''; otherwise only the first character is upper-cased |
| Html.CapIdempotent | static/js/main.js:421 | capitalising twice changes nothing more |
| Html.SafeTemplate | static/js/main.js:360-390 | in a well-formed template, the text after tag stripping and decoding is the shown text, and the tag count does not depend on the values |
| Html.MakeList | static/js/main.js:360-363 | an empty list gives the placeholder; otherwise the text is the items in order and there are 2 + 2 per item tags, whatever the items contain |
| Html.DefaultBorderList | static/js/main.js:360-363 | called with the default border colour, an empty list gives the placeholder and a non-empty one shows exactly its items with 2 + 2 per item tags |
| Html.ListFacts | static/js/main.js:362 | the list's decoded text is the items joined, with one `<li>` pair per item |
| Html.BuildTimeline | static/js/main.js:379-390 | no phases gives the placeholder; otherwise the text is each phase's name, duration and details in order, with 2 + 12 per phase tags |
| Html.TimelineFacts | static/js/main.js:381-389 | the timeline's decoded text is the phases' fields in order, with twelve tags per phase |
| YieldService.LowerAll | app.py:53-54 | the lower-cased list matches the original entry by entry |
| YieldService.ClosestIndex | app.py:57-67 | with an exact match, the first one; otherwise the first entry that contains or is contained in the query, and none exactly when no entry is related |
| YieldService.FindClosest | app.py:57-67 | a result is the original-case entry at the index of the match (so always an entry of the original list), and there is one exactly when an index is found |
| YieldService.PartialMatchWins | app.py:64-66 | without an exact match, the first entry that contains or is contained in the query is returned, whatever related entries follow |
| YieldService.FindClosestNoneIff | app.py:57-67 | `None` exactly when no entry equals, contains or is contained in the query |
| YieldService.ExactMatchWins | app.py:61-62 | an exact match wins over any earlier partial match |
| YieldService.EmptyQueryTakesFirst | app.py:64-66 | an empty query returns the first entry |
| YieldService.QueryNormalises | app.py:59 | surrounding whitespace and letter case of the input do not change the query |
| YieldService.StripLower | app.py:59 | stripping and lower-casing commute |
| YieldService.Field | app.py:84-89 | a missing field reads as '', a present one is stripped |
| YieldService.ParseAll | app.py:114-121 | all four texts parse, or the first one that does not is reported |
| YieldService.HgToKg | app.py:125 | kg/ha has two decimals and lies within 0.005 of hg/10, an exact tie going to the even last digit |
| YieldService.Convert | app.py:114-138 | success exactly when every number parses and the model answers, reporting hg rounded and hg/10 rounded; otherwise the first invalid number or a prediction failure |
| YieldService.Lookup | app.py:96-111 | an unknown area is reported with the first ten areas; then an unknown crop with all crops; a success names entries of both lists |
| YieldService.Predict | app.py:82-93 | a missing field is reported exactly when some stripped field is empty, before any lookup |
| YieldService.LookupQueriesNonEmpty | app.py:92 | once the fields are present, no lookup sees an empty query |
| YieldService.AreaBeforeItem | app.py:99-111 | an unknown area is reported whatever the crop; an unknown crop only once the area is found |
| YieldService.PredictSuccessIff | app.py:82-133 | success exactly when every field is present, both lookups succeed, every number parses and the model answers |
| YieldService.PredictSuccessValues | app.py:123-133 | a success reports the matched names, hg rounded to two decimals, and hg/10 rounded to two decimals |
| YieldService.InvalidNumberIsFirst | app.py:114-121 | an invalid-number error names the first numeric field that does not parse, after the other checks passed |

## Left out

- DOM writes, event wiring, timers, animations, the theme and the page router are not modelled. They are user-interface code.
- The `fetch` calls, the Flask routes as HTTP handlers, and the Groq advisory request are not modelled. They are network I/O.
  - That request reads `GROQ_API_KEY` while the module loads the key into `api_key` (app.py:37 against app.py:152). This is outside the model.
- The pickled model and preprocessor are the parameter `model`. Python's `float` is the parameter `parse`. Both are foreign code.
- `valid_inputs.json` is not loaded. The area and crop lists are parameters.
- Any exception raised inside the model is reported as a prediction failure. That includes a `ValueError` from the preprocessor, which the source reports as an invalid number.
- The error messages are modelled as structured values (the area or crop as typed and the list shown), not as text.
- `Math.random` is not modelled: the jitter is a parameter in [0.95, 1.05).
- Arithmetic is over exact reals. There are no IEEE-754 rounding errors. `Math.round` is modelled as half-up rounding, and the `toFixed(2)` text of the shown yield is not modelled.
- Case mapping and whitespace are ASCII only. Python's `lower` and `strip` also act on other Unicode characters.
- JavaScript object lookups by prototype keys such as `constructor` are not modelled. Those keys are neither crops, states nor seasons.
- `esc` applies `String(s)` to numbers and other non-strings. The model takes strings only, plus a missing value.
- `recommendCrop` with NaN readings is not modelled. The range-based form always supplies numbers.
- The nearest-neighbour model does not cover the caller's `null` guard (static/js/main.js:163-177). The model does cover that `predictCrop` returns `null`.
- `buildConditions` (static/js/main.js:365-377) is not modelled. It is a display helper outside the modelled builders.
- The detail sentence of each advisory bullet is not modelled. Only the bullet headings are kept.
- Html.MakeList: the text and tag-count property is stated only for a border colour without `<` or `>`. The colour is inserted unescaped, so such a colour would inject markup of its own.
- Html.MakeList and Html.BuildTimeline: the exact HTML strings are modelled as chunk lists. The contracts state their decoded text and tag count, not the exact whitespace.

=== FILE: advisory_lookup.dfy ===
/** Advisory content of the range-based page (`getAdvisory`): curated
    sections for rice and maize, and for every other key a generic
    five-section template filled in with the crop's display metadata, or
    with rice's metadata when the key is not in the crop table.

    A section keeps its title, its body text and the headings of its
    bullets; the detail sentence of each bullet is fixed prose and not
    modelled.
 */
module AdvisoryLookup {
  import opened Numeric
  import opened Text
  import opened CropTable

  /** One tab: a title, a body text and the headings of its bullets. */
  datatype Section = Section(title: string, body: string, bullets: seq<string>)

  /** The five tabs of an advisory. */
  datatype Advisory = Advisory(
    overview: Section, soil: Section, irrigation: Section, disease: Section, harvest: Section)

  /** The five sections, in tab order. */
  function Sections(a: Advisory): seq<Section> {
    [a.overview, a.soil, a.irrigation, a.disease, a.harvest]
  }

  /** A section a tab can show: a title, a body and three bullets, all
      non-empty. */
  predicate CompleteSection(s: Section) {
    s.title != [] && s.body != [] && |s.bullets| == 3
    && forall i :: 0 <= i < |s.bullets| ==> s.bullets[i] != []
  }

  predicate Complete(a: Advisory) {
    forall i :: 0 <= i < |Sections(a)| ==> CompleteSection(Sections(a)[i])
  }

  const RiceOverview: string := "Rice (Oryza sativa) is one of the world's most important staple crops, cultivated across tropical and subtropical regions. It thrives best in warm, humid conditions with standing water during the early growth stage."
  const RiceSoil: string := "Maintain soil moisture by flooding paddies up to 5 cm during transplanting and tillering."
  const RiceIrrigation: string := "Rice requires continuous submergence during vegetative stages and intermittent irrigation at grain filling."
  const RiceDisease: string := "Monitor weekly for blast, sheath blight, and brown planthopper."
  const RiceHarvest: string := "Harvest when 80–85% of the grains are straw-yellow."

  const RiceAdvisory: Advisory := Advisory(
    Section("🌾 Rice Overview", RiceOverview, ["Growth Duration", "Optimal Season", "Soil Type"]),
    Section("🌱 Soil Care", RiceSoil, ["Puddling", "Nutrient Top-up", "Organic Matter"]),
    Section("💧 Irrigation", RiceIrrigation, ["Transplanting Phase", "Tillering", "Grain Filling"]),
    Section("🛡️ Disease & Pest Management", RiceDisease, ["Rice Blast", "Brown Planthopper", "Stem Borer"]),
    Section("🌾 Harvesting", RiceHarvest, ["Timing", "Method", "Post-Harvest"]))

  const MaizeOverview: string := "Maize (Zea mays) is a versatile cereal grown for food, feed, and industrial use. It is a C4 plant that is highly efficient in water and light usage."
  const MaizeSoil: string := "Deep tillage is essential for maize root development."
  const MaizeIrrigation: string := "Maize is sensitive to water stress at emergence and tasseling."
  const MaizeDisease: string := "Fall armyworm (FAW) is currently the most serious pest of maize globally."
  const MaizeHarvest: string := "Harvest when husk turns brown and grains show a black layer."

  const MaizeAdvisory: Advisory := Advisory(
    Section("🌽 Maize Overview", MaizeOverview, ["Growth Duration", "Optimal Season", "Soil Type"]),
    Section("🌱 Soil Care", MaizeSoil, ["Ploughing", "Fertiliser", "Micronutrients"]),
    Section("💧 Irrigation", MaizeIrrigation, ["Germination Phase", "Tasseling & Silking", "Grain Filling"]),
    Section("🛡️ Disease & Pest Management", MaizeDisease, ["Fall Armyworm", "Maize Lethal Necrosis", "Stalk Rot"]),
    Section("🌾 Harvesting", MaizeHarvest, ["Maturity Signs", "Drying", "Storage"]))

  /** `ADVISORY_DATA[key]`: curated content exists for rice and maize only. */
  function Curated(key: string): (a: Option<Advisory>)
    ensures a.Some? <==> key == "rice" || key == "maize"
  {
    if key == "rice" then Some(RiceAdvisory)
    else if key == "maize" then Some(MaizeAdvisory)
    else None
  }

  /** The sentence the generic overview continues with after the crop's
      names. */
  const OverviewTail: string := " is a commercially important crop that can be successfully grown with good agronomic practices tailored to your local conditions."
  const GenericSoil: string := "Proper soil preparation is the foundation of a successful crop."
  const GenericIrrigation: string := "Efficient irrigation conserves water and prevents disease."
  const GenericDisease: string := "Integrated Pest Management (IPM) reduces chemical dependence."
  const GenericHarvest: string := "Timely harvest prevents losses and maintains quality."

  /** The generic template, filled in with the capitalised key and the
      given metadata. */
  function Generic(key: string, info: CropInfo): Advisory {
    var name := Capitalize(key);
    Advisory(
      Section(info.emoji + " " + name + " Overview", name + " (" + info.scientific + ")" + OverviewTail,
        ["Growth Period", "Key Requirement", "Variety Selection"]),
      Section("🌱 Soil Preparation", GenericSoil, ["Tillage", "Soil Testing", "pH Correction"]),
      Section("💧 Water Management", GenericIrrigation, ["Scheduling", "Critical Stages", "Drainage"]),
      Section("🛡️ Pest & Disease Control", GenericDisease, ["Scouting", "Biological Control", "Chemical Control"]),
      Section("🌾 Harvest & Storage", GenericHarvest, ["Right Stage", "Post-Harvest", "Storage Hygiene"]))
  }

  /** `getAdvisory`: the curated content unchanged for rice and maize;
      for any other key a complete five-section advisory whose overview
      names the capitalised key with the emoji and scientific name of the
      crop table entry, rice's entry when the key is not in the table. */
  function GetAdvisory(key: string): (a: Advisory)
    ensures key == "rice" ==> a == RiceAdvisory
    ensures key == "maize" ==> a == MaizeAdvisory
    ensures Curated(key).None? ==> a == Generic(key, InfoOrRice(key))
    ensures Complete(a)
  {
    CuratedComplete();
    match Curated(key)
    case Some(curated) => curated
    case None =>
      var info := InfoOrRice(key);
      GenericComplete(key, info);
      Generic(key, info)
  }

  /** For a key without curated content the overview names the capitalised
      key with the emoji and scientific name of the crop table entry, rice's
      entry when the key is not in the table. */
  lemma GenericOverview(key: string)
    requires Curated(key).None?
    ensures GetAdvisory(key).overview.title == InfoOrRice(key).emoji + " " + Capitalize(key) + " Overview"
    ensures Capitalize(key) + " (" + InfoOrRice(key).scientific + ")" <= GetAdvisory(key).overview.body
  {
    GenericComplete(key, InfoOrRice(key));
  }

  lemma CuratedComplete()
    ensures Complete(RiceAdvisory) && Complete(MaizeAdvisory)
  {
  }

  /** The generic template is complete, and its overview body begins with
      the capitalised key and the scientific name in parentheses. */
  lemma GenericComplete(key: string, info: CropInfo)
    ensures Complete(Generic(key, info))
    ensures Generic(key, info).overview.title == info.emoji + " " + Capitalize(key) + " Overview"
    ensures Capitalize(key) + " (" + info.scientific + ")" <= Generic(key, info).overview.body
  {
    var prefix := Capitalize(key) + " (" + info.scientific + ")";
    assert Generic(key, info).overview.body[..|prefix|] == prefix;
  }

  /** For a crop of the table other than rice and maize the generic advisory
      uses that crop's own metadata; for a key outside the table it uses
      rice's. */
  lemma AdvisoryMetadata(key: string)
    ensures key != "rice" && key != "maize" && FromKey(key).Some? ==>
      GetAdvisory(key).overview.title == Info(FromKey(key).value).emoji + " " + Capitalize(key) + " Overview"
    ensures FromKey(key).None? ==>
      GetAdvisory(key).overview.title == Info(Rice).emoji + " " + Capitalize(key) + " Overview"
  {
    if FromKey(key).None? {
      assert key != Key(Rice) && key != Key(Maize);
    }
  }

  /** The advisory shown for a recommended crop other than rice and maize is
      built from that crop's own metadata. */
  lemma AdvisoryOfCrop(c: Crop)
    requires c != Rice && c != Maize
    ensures GetAdvisory(Key(c)) == Generic(Key(c), Info(c))
  {
    FromKeyOfKey(c);
    KeyInjective(c, Rice);
    KeyInjective(c, Maize);
  }
}

=== FILE: crop_table.dfy ===
/** The static crop tables of the range-based recommender page: display
    metadata per crop (`CROP_DB`) and the inclusive agronomic range of each
    of the seven soil and climate features per crop (`CROP_CONDITIONS`).

    Both tables have the same 23 keys in the same order; that order is the
    iteration order of `Object.entries`, which decides ties in the ranking.
 */
module CropTable {
  import opened Numeric

  datatype Crop =
    | Rice | Maize | Wheat | Chickpea | KidneyBeans | PigeonPeas | MothBeans
    | MungBean | BlackGram | Lentil | Pomegranate | Banana | Mango | Grapes
    | Watermelon | Muskmelon | Apple | Orange | Papaya | Coconut | Cotton
    | Jute | Coffee

  /** Every crop, in the declaration order of both tables. */
  const AllCrops: seq<Crop> := [
    Rice, Maize, Wheat, Chickpea, KidneyBeans, PigeonPeas, MothBeans,
    MungBean, BlackGram, Lentil, Pomegranate, Banana, Mango, Grapes,
    Watermelon, Muskmelon, Apple, Orange, Papaya, Coconut, Cotton,
    Jute, Coffee
  ]

  /** Position of a crop in the tables. */
  function Pos(c: Crop): (i: nat)
    ensures i < |AllCrops| && AllCrops[i] == c
  {
    match c
    case Rice => 0 case Maize => 1 case Wheat => 2 case Chickpea => 3
    case KidneyBeans => 4 case PigeonPeas => 5 case MothBeans => 6
    case MungBean => 7 case BlackGram => 8 case Lentil => 9
    case Pomegranate => 10 case Banana => 11 case Mango => 12
    case Grapes => 13 case Watermelon => 14 case Muskmelon => 15
    case Apple => 16 case Orange => 17 case Papaya => 18 case Coconut => 19
    case Cotton => 20 case Jute => 21 case Coffee => 22
  }

  /** Each crop appears exactly once in the table order. */
  lemma AllCropsDistinct()
    ensures forall i :: 0 <= i < |AllCrops| ==> Pos(AllCrops[i]) == i
    ensures forall i, j :: 0 <= i < j < |AllCrops| ==> AllCrops[i] != AllCrops[j]
  {
    assert forall i :: 0 <= i < |AllCrops| ==> Pos(AllCrops[i]) == i;
  }

  /** The object key of a crop in both tables. */
  function Key(c: Crop): string {
    match c
    case Rice => "rice" case Maize => "maize" case Wheat => "wheat"
    case Chickpea => "chickpea" case KidneyBeans => "kidneybeans"
    case PigeonPeas => "pigeonpeas" case MothBeans => "mothbeans"
    case MungBean => "mungbean" case BlackGram => "blackgram"
    case Lentil => "lentil" case Pomegranate => "pomegranate"
    case Banana => "banana" case Mango => "mango" case Grapes => "grapes"
    case Watermelon => "watermelon" case Muskmelon => "muskmelon"
    case Apple => "apple" case Orange => "orange" case Papaya => "papaya"
    case Coconut => "coconut" case Cotton => "cotton" case Jute => "jute"
    case Coffee => "coffee"
  }

  /** The first crop of `crops` whose key is `k`. */
  function FindKey(crops: seq<Crop>, k: string): (r: Option<Crop>)
    ensures r.Some? ==> r.value in crops && Key(r.value) == k
    ensures r.None? ==> forall c :: c in crops ==> Key(c) != k
  {
    if crops == [] then None
    else if Key(crops[0]) == k then Some(crops[0])
    else FindKey(crops[1..], k)
  }

  /** `CROP_DB[k]` as a lookup: the crop whose key is `k`, if any. */
  function FromKey(k: string): (r: Option<Crop>)
    ensures r.Some? ==> Key(r.value) == k
    ensures r.None? ==> forall c: Crop :: Key(c) != k
  {
    AllCropsListed();
    FindKey(AllCrops, k)
  }

  /** Every crop is listed in the table order. */
  lemma AllCropsListed()
    ensures forall c: Crop :: c in AllCrops
  {
    forall c: Crop
      ensures c in AllCrops
    {
      assert AllCrops[Pos(c)] == c;
    }
  }

  /** No two crops share a key. */
  lemma KeyInjective(a: Crop, b: Crop)
    ensures Key(a) == Key(b) ==> a == b
  {
  }

  /** With distinct keys, the search finds a listed crop under its key. */
  lemma {:induction false} FindKeyOf(crops: seq<Crop>, c: Crop)
    requires c in crops
    ensures FindKey(crops, Key(c)) == Some(c)
  {
    if crops[0] != c {
      KeyInjective(crops[0], c);
      FindKeyOf(crops[1..], c);
    }
  }

  /** Every crop is found again under its own key. */
  lemma FromKeyOfKey(c: Crop)
    ensures FromKey(Key(c)) == Some(c)
  {
    assert AllCrops[Pos(c)] == c;
    FindKeyOf(AllCrops, c);
  }

  /** Display metadata of one crop (`CROP_DB` entry). */
  datatype CropInfo = CropInfo(emoji: string, scientific: string, baseYield: real, color: string)

  function Info(c: Crop): (i: CropInfo)
    ensures i.baseYield > 0.0
    ensures i.emoji != [] && i.scientific != []
  {
    match c
    case Rice => CropInfo("🌾", "Oryza sativa", 3.8, "#38bd6c")
    case Maize => CropInfo("🌽", "Zea mays", 4.5, "#f0a500")
    case Wheat => CropInfo("🌾", "Triticum aestivum", 3.2, "#d4a017")
    case Chickpea => CropInfo("🫘", "Cicer arietinum", 1.4, "#c8a45a")
    case KidneyBeans => CropInfo("🫘", "Phaseolus vulgaris", 1.2, "#8b4513")
    case PigeonPeas => CropInfo("🫘", "Cajanus cajan", 1.0, "#b08050")
    case MothBeans => CropInfo("🫘", "Vigna aconitifolia", 0.8, "#a09060")
    case MungBean => CropInfo("🫘", "Vigna radiata", 1.1, "#78a050")
    case BlackGram => CropInfo("🫘", "Vigna mungo", 0.9, "#444")
    case Lentil => CropInfo("🫘", "Lens culinaris", 1.3, "#c8813a")
    case Pomegranate => CropInfo("🍎", "Punica granatum", 8.5, "#e63946")
    case Banana => CropInfo("🍌", "Musa acuminata", 22.0, "#ffe05d")
    case Mango => CropInfo("🥭", "Mangifera indica", 10.0, "#f4a022")
    case Grapes => CropInfo("🍇", "Vitis vinifera", 15.0, "#9b59b6")
    case Watermelon => CropInfo("🍉", "Citrullus lanatus", 30.0, "#2ecc71")
    case Muskmelon => CropInfo("🍈", "Cucumis melo", 14.0, "#f9c74f")
    case Apple => CropInfo("🍎", "Malus domestica", 8.0, "#e63946")
    case Orange => CropInfo("🍊", "Citrus sinensis", 20.0, "#f77f00")
    case Papaya => CropInfo("🧡", "Carica papaya", 25.0, "#f4a261")
    case Coconut => CropInfo("🥥", "Cocos nucifera", 5.0, "#8d6748")
    case Cotton => CropInfo("🌿", "Gossypium hirsutum", 1.8, "#f9f9f9")
    case Jute => CropInfo("🌿", "Corchorus capsularis", 2.5, "#a8c256")
    case Coffee => CropInfo("☕", "Coffea arabica", 0.8, "#6b3f20")
  }

  /** `CROP_DB[k] || CROP_DB['rice']`: the metadata under `k`, or rice's
      when `k` is not a key of the table. */
  function InfoOrRice(k: string): (i: CropInfo)
    ensures FromKey(k).Some? ==> i == Info(FromKey(k).value)
    ensures FromKey(k).None? ==> i == Info(Rice)
  {
    match FromKey(k)
    case Some(c) => Info(c)
    case None => Info(Rice)
  }

  /** An inclusive interval `[lo, hi]` of acceptable values. */
  datatype Range = Range(lo: real, hi: real)

  /** Acceptable ranges for nitrogen, phosphorus, potassium, temperature,
      humidity, pH and rainfall. */
  datatype Conditions = Conditions(n: Range, p: Range, k: Range, t: Range, h: Range, ph: Range, r: Range)

  predicate WellFormedRange(r: Range) {
    r.lo <= r.hi
  }

  predicate WellFormed(c: Conditions) {
    && WellFormedRange(c.n) && WellFormedRange(c.p) && WellFormedRange(c.k)
    && WellFormedRange(c.t) && WellFormedRange(c.h) && WellFormedRange(c.ph)
    && WellFormedRange(c.r)
  }


  /** `CROP_CONDITIONS[c]`; every range in the table has `lo < hi`. */
  function ConditionsOf(c: Crop): (cond: Conditions)
    ensures WellFormed(cond)
    ensures cond.n.lo < cond.n.hi && cond.t.lo < cond.t.hi && cond.ph.lo < cond.ph.hi
  {
    match c
    case Rice => Conditions(Range(60.0, 110.0), Range(30.0, 55.0), Range(30.0, 55.0), Range(20.0, 35.0), Range(75.0, 95.0), Range(5.5, 7.0), Range(150.0, 300.0))
    case Maize => Conditions(Range(60.0, 100.0), Range(35.0, 60.0), Range(15.0, 50.0), Range(18.0, 28.0), Range(55.0, 80.0), Range(5.5, 7.5), Range(50.0, 200.0))
    case Wheat => Conditions(Range(60.0, 100.0), Range(40.0, 70.0), Range(40.0, 80.0), Range(10.0, 22.0), Range(40.0, 70.0), Range(6.0, 7.5), Range(30.0, 150.0))
    case Chickpea => Conditions(Range(0.0, 40.0), Range(55.0, 115.0), Range(70.0, 140.0), Range(15.0, 27.0), Range(14.0, 50.0), Range(5.5, 7.0), Range(20.0, 90.0))
    case KidneyBeans => Conditions(Range(0.0, 25.0), Range(55.0, 115.0), Range(15.0, 35.0), Range(18.0, 28.0), Range(45.0, 75.0), Range(5.5, 7.0), Range(40.0, 120.0))
    case PigeonPeas => Conditions(Range(0.0, 40.0), Range(55.0, 100.0), Range(15.0, 35.0), Range(20.0, 30.0), Range(30.0, 70.0), Range(5.0, 7.0), Range(30.0, 110.0))
    case MothBeans => Conditions(Range(0.0, 25.0), Range(35.0, 55.0), Range(15.0, 35.0), Range(25.0, 38.0), Range(35.0, 65.0), Range(5.0, 7.0), Range(20.0, 80.0))
    case MungBean => Conditions(Range(0.0, 40.0), Range(35.0, 55.0), Range(15.0, 35.0), Range(22.0, 32.0), Range(55.0, 80.0), Range(5.5, 7.5), Range(30.0, 100.0))
    case BlackGram => Conditions(Range(20.0, 50.0), Range(55.0, 100.0), Range(15.0, 35.0), Range(22.0, 32.0), Range(55.0, 80.0), Range(5.0, 7.0), Range(30.0, 100.0))
    case Lentil => Conditions(Range(0.0, 40.0), Range(55.0, 100.0), Range(15.0, 35.0), Range(12.0, 22.0), Range(30.0, 65.0), Range(5.5, 7.5), Range(20.0, 80.0))
    case Pomegranate => Conditions(Range(0.0, 35.0), Range(15.0, 70.0), Range(185.0, 205.0), Range(20.0, 35.0), Range(80.0, 95.0), Range(5.5, 7.0), Range(20.0, 110.0))
    case Banana => Conditions(Range(80.0, 120.0), Range(70.0, 110.0), Range(40.0, 60.0), Range(22.0, 35.0), Range(75.0, 95.0), Range(5.5, 7.0), Range(100.0, 300.0))
    case Mango => Conditions(Range(0.0, 30.0), Range(15.0, 65.0), Range(15.0, 30.0), Range(25.0, 35.0), Range(45.0, 65.0), Range(5.5, 7.5), Range(40.0, 160.0))
    case Grapes => Conditions(Range(0.0, 20.0), Range(10.0, 50.0), Range(180.0, 205.0), Range(20.0, 35.0), Range(55.0, 80.0), Range(5.5, 7.0), Range(20.0, 100.0))
    case Watermelon => Conditions(Range(80.0, 120.0), Range(10.0, 50.0), Range(40.0, 100.0), Range(25.0, 38.0), Range(75.0, 95.0), Range(5.5, 7.0), Range(20.0, 100.0))
    case Muskmelon => Conditions(Range(0.0, 30.0), Range(10.0, 110.0), Range(40.0, 100.0), Range(25.0, 38.0), Range(70.0, 90.0), Range(5.5, 7.5), Range(20.0, 100.0))
    case Apple => Conditions(Range(0.0, 40.0), Range(100.0, 140.0), Range(130.0, 205.0), Range(11.0, 22.0), Range(80.0, 95.0), Range(5.5, 7.0), Range(80.0, 200.0))
    case Orange => Conditions(Range(0.0, 20.0), Range(5.0, 10.0), Range(5.0, 15.0), Range(20.0, 35.0), Range(85.0, 95.0), Range(5.5, 7.0), Range(80.0, 200.0))
    case Papaya => Conditions(Range(35.0, 65.0), Range(40.0, 80.0), Range(35.0, 60.0), Range(25.0, 40.0), Range(85.0, 95.0), Range(5.5, 7.0), Range(90.0, 250.0))
    case Coconut => Conditions(Range(15.0, 30.0), Range(5.0, 20.0), Range(30.0, 50.0), Range(25.0, 38.0), Range(85.0, 95.0), Range(5.0, 8.0), Range(100.0, 300.0))
    case Cotton => Conditions(Range(100.0, 140.0), Range(30.0, 90.0), Range(15.0, 55.0), Range(22.0, 35.0), Range(65.0, 85.0), Range(5.5, 8.0), Range(40.0, 200.0))
    case Jute => Conditions(Range(55.0, 90.0), Range(35.0, 65.0), Range(35.0, 65.0), Range(22.0, 35.0), Range(70.0, 95.0), Range(6.0, 7.5), Range(100.0, 300.0))
    case Coffee => Conditions(Range(0.0, 40.0), Range(15.0, 65.0), Range(15.0, 30.0), Range(18.0, 28.0), Range(55.0, 85.0), Range(4.5, 7.0), Range(60.0, 200.0))
  }
}

=== FILE: html.dfy ===
/** The string builders of the advisory page: `esc`, `cap`, `makeList` and
    `buildTimeline`.

    A field read from the advisory JSON is either a string or missing
    (`null`/`undefined`); both missing forms behave alike here. Templates
    are written as a list of chunks (markup, fixed text, escaped values)
    whose concatenation is the produced HTML, which lets the text a browser
    shows for it be computed and compared with the input.
 */
module Html {
  import opened Text

  /** A JSON field: missing, or a string. */
  datatype Value = Missing | Str(s: string)

  /** The text a value stands for: the empty string when missing. */
  function ValueText(v: Value): string {
    match v
    case Missing => ""
    case Str(s) => s
  }

  // ---------------------------------------------------------------------
  // Escaping

  /** `s.replace(/c/g, rep)`: every occurrence of `c` replaced. */
  function ReplaceAll(s: string, c: char, rep: string): (r: string)
    ensures c !in s ==> r == s
    decreases |s|
  {
    if s == [] then []
    else (if s[0] == c then rep else [s[0]]) + ReplaceAll(s[1..], c, rep)
  }

  lemma {:induction false} ReplaceAllAppend(a: string, b: string, c: char, rep: string)
    ensures ReplaceAll(a + b, c, rep) == ReplaceAll(a, c, rep) + ReplaceAll(b, c, rep)
    decreases |a|
  {
    if a == [] {
      assert a + b == b;
    } else {
      assert (a + b)[1..] == a[1..] + b;
      ReplaceAllAppend(a[1..], b, c, rep);
    }
  }

  /** The entity a character is written as, or the character itself. */
  function EscapeChar(c: char): string {
    if c == '&' then "&amp;"
    else if c == '<' then "&lt;"
    else if c == '>' then "&gt;"
    else if c == '"' then "&quot;"
    else [c]
  }

  /** No character that would open a tag, close one, or end an attribute. */
  predicate NoMarkup(s: string) {
    forall i :: 0 <= i < |s| ==> s[i] != '<' && s[i] != '>' && s[i] != '"'
  }

  /** One of the four entities starts at position `i`. */
  predicate EntityAt(s: string, i: nat)
    requires i <= |s|
  {
    var rest := s[i..];
    "&amp;" <= rest || "&lt;" <= rest || "&gt;" <= rest || "&quot;" <= rest
  }

  /** Every ampersand starts an entity. */
  predicate AmpersandsAreEntities(s: string) {
    forall i :: 0 <= i < |s| && s[i] == '&' ==> EntityAt(s, i)
  }

  /** The escaped form, one character at a time. */
  function EscapeText(s: string): (r: string)
    ensures NoMarkup(r)
    ensures AmpersandsAreEntities(r)
    ensures |r| >= |s|
    decreases |s|
  {
    if s == [] then []
    else
      var tail := EscapeText(s[1..]);
      EscapeCharAppend(s[0], tail);
      EscapeChar(s[0]) + tail
  }

  /** An escaped character keeps the escaped text after it free of markup,
      with every ampersand starting an entity. */
  lemma EscapeCharAppend(c: char, tail: string)
    requires NoMarkup(tail) && AmpersandsAreEntities(tail)
    ensures NoMarkup(EscapeChar(c) + tail) && AmpersandsAreEntities(EscapeChar(c) + tail)
  {
    var head := EscapeChar(c);
    var s := head + tail;
    assert NoMarkup(head) && forall i :: 0 < i < |head| ==> head[i] != '&' by {
      if c == '&' {
      } else if c == '<' {
      } else if c == '>' {
      } else if c == '"' {
      }
    }
    forall i | 0 <= i < |s|
      ensures s[i] != '<' && s[i] != '>' && s[i] != '"'
      ensures s[i] == '&' ==> EntityAt(s, i)
    {
      if i < |head| {
        assert s[i] == head[i];
        if s[i] == '&' {
          assert i == 0 && s[0..] == s;
          assert head <= s;
          assert head == "&amp;" || head == "&lt;" || head == "&gt;" || head == "&quot;";
        }
      } else {
        assert s[i] == tail[i - |head|];
        assert s[i..] == tail[i - |head|..];
      }
    }
  }

  lemma {:induction false} EscapeTextAppend(a: string, b: string)
    ensures EscapeText(a + b) == EscapeText(a) + EscapeText(b)
    decreases |a|
  {
    if a == [] {
      assert a + b == b;
    } else {
      assert (a + b)[1..] == a[1..] + b;
      EscapeTextAppend(a[1..], b);
    }
  }

  /** The four `replace` passes of `esc`, in the order they are written. */
  function ReplacePasses(s: string): string {
    ReplaceAll(ReplaceAll(ReplaceAll(ReplaceAll(s, '&', "&amp;"), '<', "&lt;"), '>', "&gt;"), '"', "&quot;")
  }

  lemma ReplacePassesAppend(a: string, b: string)
    ensures ReplacePasses(a + b) == ReplacePasses(a) + ReplacePasses(b)
  {
    var a1, b1 := ReplaceAll(a, '&', "&amp;"), ReplaceAll(b, '&', "&amp;");
    ReplaceAllAppend(a, b, '&', "&amp;");
    var a2, b2 := ReplaceAll(a1, '<', "&lt;"), ReplaceAll(b1, '<', "&lt;");
    ReplaceAllAppend(a1, b1, '<', "&lt;");
    var a3, b3 := ReplaceAll(a2, '>', "&gt;"), ReplaceAll(b2, '>', "&gt;");
    ReplaceAllAppend(a2, b2, '>', "&gt;");
    ReplaceAllAppend(a3, b3, '"', "&quot;");
  }

  /** The passes on a single character give its entity: the ampersand pass
      comes first, so the ampersands it introduces are never escaped again,
      and no later pass meets a character an earlier one introduced. */
  lemma ReplacePassesChar(c: char)
    ensures ReplacePasses([c]) == EscapeChar(c)
  {
    var r1 := ReplaceAll([c], '&', "&amp;");
    assert [c][1..] == [];
    if c == '&' {
      assert r1 == "&amp;";
      assert '<' !in r1 && '>' !in r1 && '"' !in r1;
    } else {
      assert r1 == [c];
      var r2 := ReplaceAll(r1, '<', "&lt;");
      if c == '<' {
        assert r2 == "&lt;";
        assert '>' !in r2 && '"' !in r2;
      } else {
        assert r2 == [c];
        var r3 := ReplaceAll(r2, '>', "&gt;");
        if c == '>' {
          assert r3 == "&gt;";
          assert '"' !in r3;
        } else {
          assert r3 == [c];
        }
      }
    }
  }

  /** Sequential replacement agrees with the character-wise escaping. */
  lemma {:induction false} ReplacePassesEscape(s: string)
    ensures ReplacePasses(s) == EscapeText(s)
    decreases |s|
  {
    if s != [] {
      assert s == [s[0]] + s[1..];
      ReplacePassesAppend([s[0]], s[1..]);
      ReplacePassesChar(s[0]);
      ReplacePassesEscape(s[1..]);
    }
  }

  /** `esc`: the empty string for a missing value; otherwise the string
      with `&`, `<`, `>` and `"` replaced by their entities, so the result
      holds no markup and every ampersand starts an entity. */
  function Esc(v: Value): (r: string)
    ensures v.Missing? ==> r == ""
    ensures v.Str? ==> r == EscapeText(v.s)
    ensures NoMarkup(r) && AmpersandsAreEntities(r)
  {
    match v
    case Missing => ""
    case Str(s) =>
      ReplacePassesEscape(s);
      ReplacePasses(s)
  }

  // ---------------------------------------------------------------------
  // Decoding

  /** Entity decoding of the four entities `esc` produces. */
  function Unescape(t: string): string
    decreases |t|
  {
    if t == [] then []
    else if "&amp;" <= t then "&" + Unescape(t[5..])
    else if "&lt;" <= t then "<" + Unescape(t[4..])
    else if "&gt;" <= t then ">" + Unescape(t[4..])
    else if "&quot;" <= t then "\"" + Unescape(t[6..])
    else [t[0]] + Unescape(t[1..])
  }

  lemma ConsAppend(c: char, x: string, u: string)
    ensures [c] + (x + u) == ([c] + x) + u
  {
  }

  /** A prefix that differs from `s` somewhere is not a prefix of it. */
  lemma NotPrefix(p: string, s: string, i: nat)
    requires i < |p| && i < |s| && p[i] != s[i]
    ensures !(p <= s)
  {
  }

  /** Decoding an escaped character gives the character back. */
  lemma UnescapeChar(c: char, rest: string)
    ensures Unescape(EscapeChar(c) + rest) == [c] + Unescape(rest)
  {
    var s := EscapeChar(c) + rest;
    if c == '&' {
      assert "&amp;" <= s && s[5..] == rest;
    } else if c == '<' {
      NotPrefix("&amp;", s, 1);
      assert "&lt;" <= s && s[4..] == rest;
    } else if c == '>' {
      NotPrefix("&amp;", s, 1);
      NotPrefix("&lt;", s, 1);
      assert "&gt;" <= s && s[4..] == rest;
    } else if c == '"' {
      NotPrefix("&amp;", s, 1);
      NotPrefix("&lt;", s, 1);
      NotPrefix("&gt;", s, 1);
      assert "&quot;" <= s && s[6..] == rest;
    } else {
      UnescapeOther(c, rest);
    }
  }

  /** A character that is not an ampersand decodes to itself. */
  lemma UnescapeOther(c: char, rest: string)
    requires c != '&'
    ensures Unescape([c] + rest) == [c] + Unescape(rest)
  {
    var s := [c] + rest;
    NotPrefix("&amp;", s, 0);
    NotPrefix("&lt;", s, 0);
    NotPrefix("&gt;", s, 0);
    NotPrefix("&quot;", s, 0);
    assert s[1..] == rest;
  }

  /** Decoding undoes escaping, whatever follows. */
  lemma {:induction false} UnescapeEscape(s: string, t: string)
    ensures Unescape(EscapeText(s) + t) == s + Unescape(t)
    decreases |s|
  {
    if s == [] {
      assert EscapeText(s) + t == t;
    } else {
      var e0, e1 := EscapeChar(s[0]), EscapeText(s[1..]);
      assert EscapeText(s) + t == e0 + (e1 + t) by {
        assert EscapeText(s) == e0 + e1;
      }
      calc {
        Unescape(EscapeText(s) + t);
        Unescape(e0 + (e1 + t));
        { UnescapeChar(s[0], e1 + t); }
        [s[0]] + Unescape(e1 + t);
        { UnescapeEscape(s[1..], t); }
        [s[0]] + (s[1..] + Unescape(t));
        { ConsAppend(s[0], s[1..], Unescape(t)); assert [s[0]] + s[1..] == s; }
        s + Unescape(t);
      }
    }
  }

  /** `esc` is undone by decoding: the text shown is the original string. */
  lemma EscRoundTrip(v: Value)
    ensures Unescape(Esc(v)) == ValueText(v)
  {
    if v.Str? {
      UnescapeEscape(v.s, "");
      assert EscapeText(v.s) + "" == EscapeText(v.s);
      assert v.s + "" == v.s;
    }
  }

  /** Text without ampersands decodes to itself, whatever follows. */
  lemma {:induction false} UnescapePlain(x: string, t: string)
    requires '&' !in x
    ensures Unescape(x + t) == x + Unescape(t)
    decreases |x|
  {
    if x == [] {
      assert x + t == t;
    } else {
      assert '&' !in x[1..] by {
        assert forall i :: 0 <= i < |x| - 1 ==> x[1..][i] == x[i + 1];
      }
      calc {
        Unescape(x + t);
        { assert x + t == [x[0]] + (x[1..] + t); }
        Unescape([x[0]] + (x[1..] + t));
        { UnescapeOther(x[0], x[1..] + t); }
        [x[0]] + Unescape(x[1..] + t);
        { UnescapePlain(x[1..], t); }
        [x[0]] + (x[1..] + Unescape(t));
        { ConsAppend(x[0], x[1..], Unescape(t)); assert [x[0]] + x[1..] == x; }
        x + Unescape(t);
      }
    }
  }

  // ---------------------------------------------------------------------
  // Capitalisation

  /** `cap` of the advisory page: the empty string for a missing or empty
      value; otherwise the first character upper-cased and the rest kept. */
  function Cap(v: Value): (r: string)
    ensures v.Missing? || v == Str("") ==> r == ""
    ensures v.Str? && v.s != "" ==>
      |r| == |v.s| && r[0] == UpperChar(v.s[0]) && r[1..] == v.s[1..]
  {
    match v
    case Missing => ""
    case Str(s) => if s == "" then "" else Capitalize(s)
  }

  /** Capitalising twice changes nothing more. */
  lemma CapIdempotent(v: Value)
    ensures Cap(Str(Cap(v))) == Cap(v)
  {
    if v.Str? && v.s != "" {
      CapitalizeIdempotent(v.s);
    }
  }

  // ---------------------------------------------------------------------
  // Tag stripping: the text a browser shows

  /** Characters outside tags, `<` opening a tag and `>` closing it. */
  function StripTags(s: string, inTag: bool): string
    decreases |s|
  {
    if s == [] then []
    else if inTag then StripTags(s[1..], s[0] != '>')
    else if s[0] == '<' then StripTags(s[1..], true)
    else [s[0]] + StripTags(s[1..], false)
  }

  /** Whether a tag is still open after `s`. */
  function EndsInTag(s: string, inTag: bool): bool
    decreases |s|
  {
    if s == [] then inTag
    else if inTag then EndsInTag(s[1..], s[0] != '>')
    else EndsInTag(s[1..], s[0] == '<')
  }

  lemma {:induction false} StripAppend(a: string, b: string, inTag: bool)
    ensures StripTags(a + b, inTag) == StripTags(a, inTag) + StripTags(b, EndsInTag(a, inTag))
    ensures EndsInTag(a + b, inTag) == EndsInTag(b, EndsInTag(a, inTag))
    decreases |a|
  {
    if a == [] {
      assert a + b == b;
    } else {
      assert (a + b)[1..] == a[1..] + b;
      assert (a + b)[0] == a[0];
      var next := if inTag then a[0] != '>' else a[0] == '<';
      StripAppend(a[1..], b, next);
    }
  }

  /** Inside a tag, text without `>` shows nothing and leaves the tag open. */
  lemma {:induction false} StripInTag(x: string)
    requires '>' !in x
    ensures StripTags(x, true) == [] && EndsInTag(x, true)
    decreases |x|
  {
    if x != [] {
      StripInTag(x[1..]);
    }
  }

  /** A tag shows nothing and leaves no tag open. */
  lemma StripTag(inner: string)
    requires '>' !in inner
    ensures StripTags("<" + inner + ">", false) == [] && !EndsInTag("<" + inner + ">", false)
  {
    StripInTag(inner);
    StripAppend("<", inner, false);
    StripAppend("<" + inner, ">", false);
  }

  /** Text without `<` shows as it is and opens no tag. */
  lemma {:induction false} StripText(x: string)
    requires '<' !in x
    ensures StripTags(x, false) == x && !EndsInTag(x, false)
    decreases |x|
  {
    if x != [] {
      StripText(x[1..]);
      assert x == [x[0]] + x[1..];
    }
  }

  /** The text a browser shows for markup that uses only these entities. */
  function TextContent(html: string): string {
    Unescape(StripTags(html, false))
  }

  // ---------------------------------------------------------------------
  // Templates

  /** A piece of a template: a tag (given by what stands between its angle
      brackets), fixed text, or an escaped value. */
  datatype Chunk = Markup(inner: string) | Literal(text: string) | Escaped(v: Value)

  /** A template the text lemmas apply to: a tag holds no angle bracket
      between its own two, fixed text holds neither `<` nor `&`. */
  predicate WellFormedChunk(c: Chunk) {
    match c
    case Markup(t) => AngleFree(t)
    case Literal(x) => PlainText(x)
    case Escaped(_) => true
  }

  /** No angle bracket. */
  predicate AngleFree(s: string) {
    forall i :: 0 <= i < |s| ==> s[i] != '<' && s[i] != '>'
  }

  /** Neither a tag nor an entity can start here. */
  predicate PlainText(s: string) {
    forall i :: 0 <= i < |s| ==> s[i] != '<' && s[i] != '&'
  }

  predicate WellFormed(cs: seq<Chunk>)
    decreases |cs|
  {
    cs == [] || (WellFormedChunk(cs[0]) && WellFormed(cs[1..]))
  }

  /** The text between the angle brackets of a fixed tag. */
  type TagText = s: string | AngleFree(s) witness ""

  // The fixed tags of the two templates.
  const UlList: TagText := "ul class=\"adv-list\""
  const UlEnd: TagText := "/ul"
  const LiEnd: TagText := "/li"
  const DivTimeline: TagText := "div class=\"timeline\""
  const DivItem: TagText := "div class=\"timeline-item\""
  const DivDot: TagText := "div class=\"timeline-dot\""
  const DivPhase: TagText := "div class=\"timeline-phase\""
  const SpanPhaseName: TagText := "span class=\"timeline-phase-name\""
  const SpanDuration: TagText := "span class=\"timeline-duration\""
  const DivDetails: TagText := "div class=\"timeline-details\""
  const DivEnd: TagText := "/div"
  const SpanEnd: TagText := "/span"

  /** The HTML of a chunk. */
  function RenderChunk(c: Chunk): string {
    match c
    case Markup(t) => "<" + t + ">"
    case Literal(x) => x
    case Escaped(v) => Esc(v)
  }

  /** The text a chunk is meant to show in the page. */
  function ChunkText(c: Chunk): string {
    match c
    case Markup(_) => ""
    case Literal(x) => x
    case Escaped(v) => ValueText(v)
  }

  /** What is left of a chunk once tags are dropped, before decoding. */
  function ChunkStripped(c: Chunk): string {
    match c
    case Markup(_) => ""
    case Literal(x) => x
    case Escaped(v) => Esc(v)
  }

  /** The HTML of a template. */
  function Render(cs: seq<Chunk>): string
    decreases |cs|
  {
    if cs == [] then [] else RenderChunk(cs[0]) + Render(cs[1..])
  }

  /** The text a template is meant to show: its fixed text and its values. */
  function ShownText(cs: seq<Chunk>): string
    decreases |cs|
  {
    if cs == [] then [] else ChunkText(cs[0]) + ShownText(cs[1..])
  }

  /** The template with its tags dropped, values still escaped. */
  function Stripped(cs: seq<Chunk>): string
    decreases |cs|
  {
    if cs == [] then [] else ChunkStripped(cs[0]) + Stripped(cs[1..])
  }

  /** One for a tag, none otherwise. */
  function IsMarkup(c: Chunk): nat {
    if c.Markup? then 1 else 0
  }

  /** The number of tags of a template. */
  function Tags(cs: seq<Chunk>): nat
    decreases |cs|
  {
    if cs == [] then 0 else IsMarkup(cs[0]) + Tags(cs[1..])
  }

  /** The number of occurrences of `c` in `s`. */
  function Count(c: char, s: string): nat
    decreases |s|
  {
    if s == [] then 0 else (if s[0] == c then 1 else 0) + Count(c, s[1..])
  }

  lemma {:induction false} CountAppend(c: char, a: string, b: string)
    ensures Count(c, a + b) == Count(c, a) + Count(c, b)
    decreases |a|
  {
    if a == [] {
      assert a + b == b;
    } else {
      assert (a + b)[1..] == a[1..] + b;
      assert (a + b)[0] == a[0];
      CountAppend(c, a[1..], b);
    }
  }

  lemma {:induction false} CountAbsent(c: char, s: string)
    requires c !in s
    ensures Count(c, s) == 0
    decreases |s|
  {
    if s != [] {
      CountAbsent(c, s[1..]);
    }
  }

  lemma {:induction false} WellFormedAppend(a: seq<Chunk>, b: seq<Chunk>)
    requires WellFormed(a) && WellFormed(b)
    ensures WellFormed(a + b)
    decreases |a|
  {
    if a == [] {
      assert a + b == b;
    } else {
      assert (a + b)[0] == a[0];
      assert (a + b)[1..] == a[1..] + b;
      WellFormedAppend(a[1..], b);
    }
  }

  // Rendering, the shown text and the tag count all distribute over
  // putting templates side by side.

  lemma {:induction false} RenderAppend(a: seq<Chunk>, b: seq<Chunk>)
    ensures Render(a + b) == Render(a) + Render(b)
    decreases |a|
  {
    if a == [] {
      assert a + b == b;
    } else {
      assert (a + b)[0] == a[0];
      assert (a + b)[1..] == a[1..] + b;
      RenderAppend(a[1..], b);
    }
  }

  lemma {:induction false} ShownAppend(a: seq<Chunk>, b: seq<Chunk>)
    ensures ShownText(a + b) == ShownText(a) + ShownText(b)
    decreases |a|
  {
    if a == [] {
      assert a + b == b;
    } else {
      assert (a + b)[0] == a[0];
      assert (a + b)[1..] == a[1..] + b;
      ShownAppend(a[1..], b);
    }
  }

  lemma {:induction false} TagsAppend(a: seq<Chunk>, b: seq<Chunk>)
    ensures Tags(a + b) == Tags(a) + Tags(b)
    decreases |a|
  {
    if a == [] {
      assert a + b == b;
    } else {
      assert (a + b)[0] == a[0];
      assert (a + b)[1..] == a[1..] + b;
      TagsAppend(a[1..], b);
    }
  }

  lemma ChunkStrip(c: Chunk)
    requires WellFormedChunk(c)
    ensures StripTags(RenderChunk(c), false) == ChunkStripped(c)
    ensures !EndsInTag(RenderChunk(c), false)
  {
    match c
    case Markup(t) => StripTag(t);
    case Literal(x) => StripText(x);
    case Escaped(v) =>
      var e := Esc(v);
      assert '<' !in e;
      StripText(e);
  }

  /** Stripping a well-formed template leaves the fixed text and the
      escaped values, with no tag left open. */
  lemma {:induction false} StripRender(cs: seq<Chunk>)
    requires WellFormed(cs)
    ensures !EndsInTag(Render(cs), false)
    ensures StripTags(Render(cs), false) == Stripped(cs)
    decreases |cs|
  {
    if cs != [] {
      StripRender(cs[1..]);
      ChunkStrip(cs[0]);
      StripAppend(RenderChunk(cs[0]), Render(cs[1..]), false);
    }
  }

  lemma DecodeChunk(c: Chunk, rest: string)
    requires WellFormedChunk(c)
    ensures Unescape(ChunkStripped(c) + rest) == ChunkText(c) + Unescape(rest)
  {
    match c
    case Markup(_) =>
      assert ChunkStripped(c) + rest == rest;
    case Literal(x) => UnescapePlain(x, rest);
    case Escaped(v) =>
      if v.Str? {
        UnescapeEscape(v.s, rest);
      } else {
        assert ChunkStripped(c) + rest == rest;
      }
  }

  lemma {:induction false} DecodeStripped(cs: seq<Chunk>)
    requires WellFormed(cs)
    ensures Unescape(Stripped(cs)) == ShownText(cs)
    decreases |cs|
  {
    if cs != [] {
      DecodeStripped(cs[1..]);
      DecodeChunk(cs[0], Stripped(cs[1..]));
    }
  }

  /** A browser shows exactly the fixed text and the values of a
      well-formed template. */
  lemma TemplateText(cs: seq<Chunk>)
    requires WellFormed(cs)
    ensures TextContent(Render(cs)) == ShownText(cs)
  {
    StripRender(cs);
    DecodeStripped(cs);
  }

  /** Every `<` of a well-formed template opens one of its own tags: the
      values put none into the page. */
  lemma {:induction false} TemplateTags(cs: seq<Chunk>)
    requires WellFormed(cs)
    ensures Count('<', Render(cs)) == Tags(cs)
    decreases |cs|
  {
    if cs != [] {
      TemplateTags(cs[1..]);
      var head := RenderChunk(cs[0]);
      CountAppend('<', head, Render(cs[1..]));
      match cs[0]
      case Markup(t) =>
        CountAbsent('<', t);
        CountAppend('<', "<", t);
        CountAppend('<', "<" + t, ">");
      case Literal(x) => CountAbsent('<', x);
      case Escaped(v) =>
        assert '<' !in Esc(v);
        CountAbsent('<', Esc(v));
    }
  }

  /** A template the page can show correctly: what a browser displays is
      its fixed text and values, and its only tags are its own. */
  lemma SafeTemplate(cs: seq<Chunk>)
    requires WellFormed(cs)
    ensures TextContent(Render(cs)) == ShownText(cs)
    ensures Count('<', Render(cs)) == Tags(cs)
  {
    TemplateText(cs);
    TemplateTags(cs);
  }

  // ---------------------------------------------------------------------
  // makeList

  /** The placeholder paragraph `makeList` returns for an empty list. */
  const NoData: string := "<p style=\"color:var(--text-muted);font-size:13px;\">No data available.</p>"

  /** The default border colour of `makeList`. */
  const DefaultBorder: TagText := "var(--green-500)"

  /** The chunks of one `<li>` of `makeList`. */
  function Item(v: Value, borderColor: string): seq<Chunk> {
    [Markup("li style=\"border-left-color:" + borderColor + "\""), Escaped(v), Markup(LiEnd)]
  }

  /** The list items of `makeList`, one `<li>` per item. */
  function ListItems(items: seq<Value>, borderColor: string): seq<Chunk>
    decreases |items|
  {
    if items == [] then [] else Item(items[0], borderColor) + ListItems(items[1..], borderColor)
  }

  /** The whole `<ul>` of a non-empty list. */
  function ListChunks(items: seq<Value>, borderColor: string): seq<Chunk> {
    [Markup(UlList)] + ListItems(items, borderColor) + [Markup(UlEnd)]
  }

  /** The values' texts, concatenated. */
  function JoinText(items: seq<Value>): string
    decreases |items|
  {
    if items == [] then [] else ValueText(items[0]) + JoinText(items[1..])
  }

  /** `makeList`: the placeholder for an empty list; otherwise an `adv-list`
      whose items a browser shows as exactly the given strings, in order,
      and whose tags are the list's two and two per item, whatever markup
      the items contain. */
  function MakeList(items: seq<Value>, borderColor: string): (html: string)
    ensures items == [] ==> html == NoData
    ensures items != [] && '<' !in borderColor && '>' !in borderColor ==>
      && TextContent(html) == JoinText(items)
      && Count('<', html) == 2 + 2 * |items|
  {
    if items == [] then NoData
    else
      if '<' !in borderColor && '>' !in borderColor then
        ListFacts(items, borderColor);
        Render(ListChunks(items, borderColor))
      else
        Render(ListChunks(items, borderColor))
  }

  /** `makeList` called without a colour: the default border colour holds
      no angle bracket, so a non-empty list shows exactly its items. */
  lemma DefaultBorderList(items: seq<Value>)
    ensures items == [] ==> MakeList(items, DefaultBorder) == NoData
    ensures items != [] ==>
      && TextContent(MakeList(items, DefaultBorder)) == JoinText(items)
      && Count('<', MakeList(items, DefaultBorder)) == 2 + 2 * |items|
  {
    NoBracket(DefaultBorder);
    if items != [] {
      ListFacts(items, DefaultBorder);
    }
  }

  /** A tag's text holds neither angle bracket. */
  lemma NoBracket(t: TagText)
    ensures '<' !in t && '>' !in t
  {
  }

  /** A one-chunk list is its chunk. */
  lemma Single(c: Chunk)
    ensures Render([c]) == RenderChunk(c) && ShownText([c]) == ChunkText(c)
    ensures Tags([c]) == IsMarkup(c)
    ensures WellFormed([c]) <==> WellFormedChunk(c)
  {
    assert [c][1..] == [];
  }

  lemma ItemFacts(v: Value, borderColor: string)
    requires '<' !in borderColor && '>' !in borderColor
    ensures WellFormed(Item(v, borderColor))
    ensures ShownText(Item(v, borderColor)) == ValueText(v)
    ensures Tags(Item(v, borderColor)) == 2
  {
    var cs := Item(v, borderColor);
    var pre, post := "li style=\"border-left-color:", "\"";
    assert AngleFree(pre) && AngleFree(post) && AngleFree(borderColor);
    assert AngleFree(pre + borderColor + post) by {
      var t := pre + borderColor + post;
      forall i | 0 <= i < |t| ensures t[i] != '<' && t[i] != '>' {
        if i < |pre| {
          assert t[i] == pre[i];
        } else if i < |pre| + |borderColor| {
          assert t[i] == borderColor[i - |pre|];
        } else {
          assert t[i] == post[i - |pre| - |borderColor|];
        }
      }
    }
    assert WellFormed(cs[2..]) && WellFormed(cs[1..]) && WellFormed(cs[0..]);
    assert ShownText(cs[2..]) == "" && ShownText(cs[1..]) == ValueText(v) + "";
    assert Tags(cs[2..]) == 1 && Tags(cs[1..]) == 1;
    assert cs[0..] == cs;
  }

  lemma {:induction false} ItemsFacts(items: seq<Value>, borderColor: string)
    requires '<' !in borderColor && '>' !in borderColor
    ensures WellFormed(ListItems(items, borderColor))
    ensures ShownText(ListItems(items, borderColor)) == JoinText(items)
    ensures Tags(ListItems(items, borderColor)) == 2 * |items|
    decreases |items|
  {
    if items != [] {
      ItemsFacts(items[1..], borderColor);
      ItemFacts(items[0], borderColor);
      ShownAppend(Item(items[0], borderColor), ListItems(items[1..], borderColor));
      TagsAppend(Item(items[0], borderColor), ListItems(items[1..], borderColor));
      WellFormedAppend(Item(items[0], borderColor), ListItems(items[1..], borderColor));
    }
  }

  lemma ListChunksFacts(items: seq<Value>, borderColor: string)
    requires '<' !in borderColor && '>' !in borderColor
    ensures WellFormed(ListChunks(items, borderColor))
    ensures ShownText(ListChunks(items, borderColor)) == JoinText(items)
    ensures Tags(ListChunks(items, borderColor)) == 2 + 2 * |items|
  {
    var open, body, close := [Markup(UlList)], ListItems(items, borderColor), [Markup(UlEnd)];
    assert ListChunks(items, borderColor) == open + body + close;
    ItemsFacts(items, borderColor);
    Single(open[0]);
    Single(close[0]);
    assert WellFormed(open + body + close) by {
      WellFormedAppend(open, body);
      WellFormedAppend(open + body, close);
    }
    assert ShownText(open + body + close) == JoinText(items) by {
      ShownAppend(open, body);
      ShownAppend(open + body, close);
    }
    assert Tags(open + body + close) == 2 + 2 * |items| by {
      TagsAppend(open, body);
      TagsAppend(open + body, close);
    }
  }

  lemma ListFacts(items: seq<Value>, borderColor: string)
    requires '<' !in borderColor && '>' !in borderColor
    ensures TextContent(Render(ListChunks(items, borderColor))) == JoinText(items)
    ensures Count('<', Render(ListChunks(items, borderColor))) == 2 + 2 * |items|
  {
    ListChunksFacts(items, borderColor);
    SafeTemplate(ListChunks(items, borderColor));
  }

  // ---------------------------------------------------------------------
  // buildTimeline

  /** The placeholder paragraph `buildTimeline` returns for no phases. */
  const NoTimeline: string := "<p style=\"color:var(--text-muted);font-size:13px;\">No timeline data.</p>"

  /** One phase of a crop timeline, as the advisory JSON gives it. */
  datatype Phase = Phase(phase: Value, duration: Value, details: Value)

  // The fixed parts of a `timeline-item` around its three fields: the
  // template's tags, with its line breaks and indentation as fixed text.
  const TimelineOpen: seq<Chunk> := [Literal("\n    "), Markup(DivItem), Literal("\n      "), Markup(DivDot), Markup(DivEnd)]
  const PhaseOpen: seq<Chunk> := [Literal("\n      "), Markup(DivPhase), Literal("\n        "), Markup(SpanPhaseName)]
  const AfterPhase: seq<Chunk> := [Markup(SpanEnd), Literal("\n        "), Markup(SpanDuration)]
  const AfterDuration: seq<Chunk> := [Markup(SpanEnd), Literal("\n      "), Markup(DivEnd), Literal("\n      "), Markup(DivDetails)]
  const ItemClose: seq<Chunk> := [Markup(DivEnd), Literal("\n    "), Markup(DivEnd)]

  /** The chunks of one `timeline-item`. */
  function TimelineItem(p: Phase): seq<Chunk> {
    TimelineOpen + PhaseOpen + [Escaped(p.phase)] + AfterPhase + [Escaped(p.duration)]
    + AfterDuration + [Escaped(p.details)] + ItemClose
  }

  /** The timeline items of all phases, in order. */
  function TimelineItems(phases: seq<Phase>): seq<Chunk>
    decreases |phases|
  {
    if phases == [] then [] else TimelineItem(phases[0]) + TimelineItems(phases[1..])
  }

  /** The whole `timeline` block of a non-empty phase list. */
  function TimelineChunks(phases: seq<Phase>): seq<Chunk> {
    [Markup(DivTimeline)] + TimelineItems(phases) + [Markup(DivEnd)]
  }

  /** The text a browser shows for one phase: its three fields, between
      the template's whitespace. */
  function PhaseText(p: Phase): string {
    "\n    \n      " + "\n      \n        " + ValueText(p.phase)
    + "\n        " + ValueText(p.duration)
    + "\n      \n      " + ValueText(p.details) + "\n    "
  }

  function PhasesText(phases: seq<Phase>): string
    decreases |phases|
  {
    if phases == [] then [] else PhaseText(phases[0]) + PhasesText(phases[1..])
  }

  /** `buildTimeline`: the placeholder for no phases; otherwise a timeline
      whose items a browser shows as exactly each phase's name, duration
      and details, in order, and whose tags are the block's two and twelve
      per phase, whatever markup the fields contain. */
  function BuildTimeline(phases: seq<Phase>): (html: string)
    ensures phases == [] ==> html == NoTimeline
    ensures phases != [] ==>
      && TextContent(html) == PhasesText(phases)
      && Count('<', html) == 2 + 12 * |phases|
  {
    if phases == [] then NoTimeline
    else
      TimelineFacts(phases);
      Render(TimelineChunks(phases))
  }

  // The first chunk of a non-empty list, split off, one view at a time.

  lemma UnfoldWellFormed(cs: seq<Chunk>)
    requires cs != []
    ensures WellFormed(cs) <==> WellFormedChunk(cs[0]) && WellFormed(cs[1..])
  {
  }

  lemma UnfoldText(cs: seq<Chunk>)
    requires cs != []
    ensures ShownText(cs) == ChunkText(cs[0]) + ShownText(cs[1..])
  {
  }

  lemma UnfoldTags(cs: seq<Chunk>)
    requires cs != []
    ensures Tags(cs) == IsMarkup(cs[0]) + Tags(cs[1..])
  {
  }

  /** `TimelineOpen` is well formed and shows only the indentation before the phase. */
  lemma TimelineOpenFacts()
    ensures WellFormed(TimelineOpen)
    ensures ShownText(TimelineOpen) == "\n    \n      "
    ensures Tags(TimelineOpen) == 3
  {
    assert WellFormed(TimelineOpen) by {
      UnfoldWellFormed(TimelineOpen[4..]);
      UnfoldWellFormed(TimelineOpen[3..]);
      UnfoldWellFormed(TimelineOpen[2..]);
      UnfoldWellFormed(TimelineOpen[1..]);
      UnfoldWellFormed(TimelineOpen);
    }
    assert ShownText(TimelineOpen) == "\n    \n      " by {
      UnfoldText(TimelineOpen[4..]);
      UnfoldText(TimelineOpen[3..]);
      UnfoldText(TimelineOpen[2..]);
      UnfoldText(TimelineOpen[1..]);
      UnfoldText(TimelineOpen);
    }
    assert Tags(TimelineOpen) == 3 by {
      UnfoldTags(TimelineOpen[4..]);
      UnfoldTags(TimelineOpen[3..]);
      UnfoldTags(TimelineOpen[2..]);
      UnfoldTags(TimelineOpen[1..]);
      UnfoldTags(TimelineOpen);
    }
  }

  /** `PhaseOpen` is well formed and shows only the indentation before the phase name. */
  lemma PhaseOpenFacts()
    ensures WellFormed(PhaseOpen)
    ensures ShownText(PhaseOpen) == "\n      \n        "
    ensures Tags(PhaseOpen) == 2
  {
    assert WellFormed(PhaseOpen) by {
      UnfoldWellFormed(PhaseOpen[3..]);
      UnfoldWellFormed(PhaseOpen[2..]);
      UnfoldWellFormed(PhaseOpen[1..]);
      UnfoldWellFormed(PhaseOpen);
    }
    assert ShownText(PhaseOpen) == "\n      \n        " by {
      UnfoldText(PhaseOpen[3..]);
      UnfoldText(PhaseOpen[2..]);
      UnfoldText(PhaseOpen[1..]);
      UnfoldText(PhaseOpen);
    }
    assert Tags(PhaseOpen) == 2 by {
      UnfoldTags(PhaseOpen[3..]);
      UnfoldTags(PhaseOpen[2..]);
      UnfoldTags(PhaseOpen[1..]);
      UnfoldTags(PhaseOpen);
    }
  }

  /** `AfterPhase` is well formed and shows only the break between name and duration. */
  lemma AfterPhaseFacts()
    ensures WellFormed(AfterPhase)
    ensures ShownText(AfterPhase) == "\n        "
    ensures Tags(AfterPhase) == 2
  {
    assert WellFormed(AfterPhase) by {
      UnfoldWellFormed(AfterPhase[2..]);
      UnfoldWellFormed(AfterPhase[1..]);
      UnfoldWellFormed(AfterPhase);
    }
    assert ShownText(AfterPhase) == "\n        " by {
      UnfoldText(AfterPhase[2..]);
      UnfoldText(AfterPhase[1..]);
      UnfoldText(AfterPhase);
    }
    assert Tags(AfterPhase) == 2 by {
      UnfoldTags(AfterPhase[2..]);
      UnfoldTags(AfterPhase[1..]);
      UnfoldTags(AfterPhase);
    }
  }

  /** `AfterDuration` is well formed and shows only the breaks before the details. */
  lemma AfterDurationFacts()
    ensures WellFormed(AfterDuration)
    ensures ShownText(AfterDuration) == "\n      \n      "
    ensures Tags(AfterDuration) == 3
  {
    assert WellFormed(AfterDuration) by {
      UnfoldWellFormed(AfterDuration[4..]);
      UnfoldWellFormed(AfterDuration[3..]);
      UnfoldWellFormed(AfterDuration[2..]);
      UnfoldWellFormed(AfterDuration[1..]);
      UnfoldWellFormed(AfterDuration);
    }
    assert ShownText(AfterDuration) == "\n      \n      " by {
      UnfoldText(AfterDuration[4..]);
      UnfoldText(AfterDuration[3..]);
      UnfoldText(AfterDuration[2..]);
      UnfoldText(AfterDuration[1..]);
      UnfoldText(AfterDuration);
    }
    assert Tags(AfterDuration) == 3 by {
      UnfoldTags(AfterDuration[4..]);
      UnfoldTags(AfterDuration[3..]);
      UnfoldTags(AfterDuration[2..]);
      UnfoldTags(AfterDuration[1..]);
      UnfoldTags(AfterDuration);
    }
  }

  /** `ItemClose` is well formed and shows only the break before the item closes. */
  lemma ItemCloseFacts()
    ensures WellFormed(ItemClose)
    ensures ShownText(ItemClose) == "\n    "
    ensures Tags(ItemClose) == 2
  {
    assert WellFormed(ItemClose) by {
      UnfoldWellFormed(ItemClose[2..]);
      UnfoldWellFormed(ItemClose[1..]);
      UnfoldWellFormed(ItemClose);
    }
    assert ShownText(ItemClose) == "\n    " by {
      UnfoldText(ItemClose[2..]);
      UnfoldText(ItemClose[1..]);
      UnfoldText(ItemClose);
    }
    assert Tags(ItemClose) == 2 by {
      UnfoldTags(ItemClose[2..]);
      UnfoldTags(ItemClose[1..]);
      UnfoldTags(ItemClose);
    }
  }

  /** One timeline item is well formed. */
  lemma TimelineItemWellFormed(p: Phase)
    ensures WellFormed(TimelineItem(p))
  {
    TimelineOpenFacts(); PhaseOpenFacts(); AfterPhaseFacts(); AfterDurationFacts(); ItemCloseFacts();
    var f1, f2, f3 := [Escaped(p.phase)], [Escaped(p.duration)], [Escaped(p.details)];
    Single(f1[0]); Single(f2[0]); Single(f3[0]);
    WellFormedAppend(TimelineOpen, PhaseOpen);
    WellFormedAppend(TimelineOpen + PhaseOpen, f1);
    WellFormedAppend(TimelineOpen + PhaseOpen + f1, AfterPhase);
    WellFormedAppend(TimelineOpen + PhaseOpen + f1 + AfterPhase, f2);
    WellFormedAppend(TimelineOpen + PhaseOpen + f1 + AfterPhase + f2, AfterDuration);
    WellFormedAppend(TimelineOpen + PhaseOpen + f1 + AfterPhase + f2 + AfterDuration, f3);
    WellFormedAppend(TimelineOpen + PhaseOpen + f1 + AfterPhase + f2 + AfterDuration + f3, ItemClose);
  }

  /** One timeline item shows its three fields between the template's
      whitespace. */
  lemma TimelineItemText(p: Phase)
    ensures ShownText(TimelineItem(p)) == PhaseText(p)
  {
    TimelineOpenFacts(); PhaseOpenFacts(); AfterPhaseFacts(); AfterDurationFacts(); ItemCloseFacts();
    var f1, f2, f3 := [Escaped(p.phase)], [Escaped(p.duration)], [Escaped(p.details)];
    Single(f1[0]); Single(f2[0]); Single(f3[0]);
    ShownAppend(TimelineOpen, PhaseOpen);
    ShownAppend(TimelineOpen + PhaseOpen, f1);
    ShownAppend(TimelineOpen + PhaseOpen + f1, AfterPhase);
    ShownAppend(TimelineOpen + PhaseOpen + f1 + AfterPhase, f2);
    ShownAppend(TimelineOpen + PhaseOpen + f1 + AfterPhase + f2, AfterDuration);
    ShownAppend(TimelineOpen + PhaseOpen + f1 + AfterPhase + f2 + AfterDuration, f3);
    ShownAppend(TimelineOpen + PhaseOpen + f1 + AfterPhase + f2 + AfterDuration + f3, ItemClose);
  }

  /** One timeline item has twelve tags. */
  lemma TimelineItemTags(p: Phase)
    ensures Tags(TimelineItem(p)) == 12
  {
    TimelineOpenFacts(); PhaseOpenFacts(); AfterPhaseFacts(); AfterDurationFacts(); ItemCloseFacts();
    var f1, f2, f3 := [Escaped(p.phase)], [Escaped(p.duration)], [Escaped(p.details)];
    Single(f1[0]); Single(f2[0]); Single(f3[0]);
    var s1 := TimelineOpen + PhaseOpen;
    assert Tags(s1) == 5 by { TagsAppend(TimelineOpen, PhaseOpen); }
    var s2 := s1 + f1;
    assert Tags(s2) == 5 by { TagsAppend(s1, f1); }
    var s3 := s2 + AfterPhase;
    assert Tags(s3) == 7 by { TagsAppend(s2, AfterPhase); }
    var s4 := s3 + f2;
    assert Tags(s4) == 7 by { TagsAppend(s3, f2); }
    var s5 := s4 + AfterDuration;
    assert Tags(s5) == 10 by { TagsAppend(s4, AfterDuration); }
    var s6 := s5 + f3;
    assert Tags(s6) == 10 by { TagsAppend(s5, f3); }
    assert Tags(s6 + ItemClose) == 12 by { TagsAppend(s6, ItemClose); }
  }

  lemma {:induction false} TimelineItemsFacts(phases: seq<Phase>)
    ensures WellFormed(TimelineItems(phases))
    ensures ShownText(TimelineItems(phases)) == PhasesText(phases)
    ensures Tags(TimelineItems(phases)) == 12 * |phases|
    decreases |phases|
  {
    if phases != [] {
      TimelineItemsFacts(phases[1..]);
      TimelineItemWellFormed(phases[0]);
      TimelineItemText(phases[0]);
      TimelineItemTags(phases[0]);
      ShownAppend(TimelineItem(phases[0]), TimelineItems(phases[1..]));
      TagsAppend(TimelineItem(phases[0]), TimelineItems(phases[1..]));
      WellFormedAppend(TimelineItem(phases[0]), TimelineItems(phases[1..]));
    }
  }

  lemma TimelineChunksFacts(phases: seq<Phase>)
    ensures WellFormed(TimelineChunks(phases))
    ensures ShownText(TimelineChunks(phases)) == PhasesText(phases)
    ensures Tags(TimelineChunks(phases)) == 2 + 12 * |phases|
  {
    var open, body, close := [Markup(DivTimeline)], TimelineItems(phases), [Markup(DivEnd)];
    assert TimelineChunks(phases) == open + body + close;
    TimelineItemsFacts(phases);
    Single(open[0]);
    Single(close[0]);
    assert WellFormed(open + body + close) by {
      WellFormedAppend(open, body);
      WellFormedAppend(open + body, close);
    }
    assert ShownText(open + body + close) == PhasesText(phases) by {
      ShownAppend(open, body);
      ShownAppend(open + body, close);
    }
    assert Tags(open + body + close) == 2 + 12 * |phases| by {
      TagsAppend(open, body);
      TagsAppend(open + body, close);
    }
  }

  lemma TimelineFacts(phases: seq<Phase>)
    ensures TextContent(Render(TimelineChunks(phases))) == PhasesText(phases)
    ensures Count('<', Render(TimelineChunks(phases))) == 2 + 12 * |phases|
  {
    TimelineChunksFacts(phases);
    SafeTemplate(TimelineChunks(phases));
  }
}

=== FILE: nearest_recommender.dfy ===
/** The nearest-neighbour recommender of the advisory page (`predictCrop`):
    the crop whose typical profile has the smallest normalised L1 distance
    to the reading, the earliest such crop on a tie.

    The reading comes from `parseFloat`, so each value is a JavaScript
    number: finite, an infinity or NaN. The distance is computed with the
    JavaScript rules for those values, which is how a reading with a
    missing or infinite field ends up with no recommendation.
 */
module NearestRecommender {
  import opened Numeric

  /** A positive table value: every profile value divides. */
  type PosReal = x: real | x > 0.0 witness 1.0

  /** One row of the `crops` table. */
  datatype Profile = Profile(
    name: string, n: PosReal, p: PosReal, k: PosReal, temp: PosReal,
    humidity: PosReal, rainfall: PosReal, ph: PosReal)

  /** `crops`, in table order. */
  const Crops: seq<Profile> := [
    Profile("rice", 120.0, 40.0, 40.0, 27.0, 85.0, 1400.0, 6.2),
    Profile("maize", 150.0, 60.0, 40.0, 25.0, 65.0, 700.0, 6.3),
    Profile("wheat", 120.0, 50.0, 40.0, 20.0, 60.0, 450.0, 6.5),
    Profile("barley", 90.0, 40.0, 40.0, 18.0, 55.0, 400.0, 6.5),
    Profile("sorghum", 100.0, 40.0, 40.0, 30.0, 50.0, 500.0, 6.2),
    Profile("millet", 80.0, 40.0, 40.0, 29.0, 45.0, 350.0, 6.3),
    Profile("cotton", 150.0, 60.0, 60.0, 28.0, 65.0, 700.0, 6.5),
    Profile("sugarcane", 250.0, 115.0, 115.0, 28.0, 80.0, 1500.0, 6.8),
    Profile("potato", 120.0, 100.0, 120.0, 18.0, 70.0, 600.0, 5.8),
    Profile("tomato", 180.0, 120.0, 150.0, 25.0, 65.0, 600.0, 6.2),
    Profile("onion", 120.0, 75.0, 125.0, 22.0, 60.0, 500.0, 6.3),
    Profile("cabbage", 150.0, 125.0, 100.0, 18.0, 75.0, 600.0, 6.5),
    Profile("cauliflower", 150.0, 100.0, 100.0, 17.0, 75.0, 600.0, 6.5),
    Profile("brinjal", 180.0, 150.0, 120.0, 26.0, 70.0, 650.0, 6.3),
    Profile("okra", 100.0, 50.0, 50.0, 28.0, 65.0, 600.0, 6.5),
    Profile("soybean", 30.0, 60.0, 40.0, 25.0, 65.0, 650.0, 6.4),
    Profile("groundnut", 25.0, 50.0, 75.0, 27.0, 60.0, 550.0, 6.3),
    Profile("lentil", 20.0, 40.0, 20.0, 20.0, 55.0, 400.0, 6.5),
    Profile("chickpea", 20.0, 50.0, 40.0, 22.0, 50.0, 400.0, 6.6),
    Profile("peas", 25.0, 75.0, 60.0, 18.0, 65.0, 450.0, 6.5),
    Profile("banana", 300.0, 150.0, 300.0, 27.0, 85.0, 2000.0, 6.5),
    Profile("mango", 75.0, 20.0, 70.0, 27.0, 60.0, 800.0, 6.5),
    Profile("apple", 200.0, 200.0, 200.0, 15.0, 65.0, 900.0, 6.5),
    Profile("grapes", 300.0, 300.0, 600.0, 25.0, 60.0, 600.0, 6.7),
    Profile("pomegranate", 250.0, 125.0, 250.0, 26.0, 55.0, 500.0, 6.8),
    Profile("coffee", 120.0, 40.0, 120.0, 22.0, 80.0, 1800.0, 6.0),
    Profile("tea", 100.0, 40.0, 100.0, 20.0, 85.0, 2000.0, 5.5),
    Profile("turmeric", 150.0, 60.0, 108.0, 25.0, 80.0, 1500.0, 6.0),
    Profile("ginger", 80.0, 50.0, 80.0, 24.0, 80.0, 1500.0, 6.0),
    Profile("garlic", 40.0, 75.0, 75.0, 20.0, 60.0, 500.0, 6.3)
  ]

  /** The seven profile values, in the order the distance adds them. */
  function ProfileValues(c: Profile): (v: seq<PosReal>)
    ensures |v| == 7
  {
    [c.n, c.p, c.k, c.temp, c.humidity, c.rainfall, c.ph]
  }

  /** A JavaScript number. */
  datatype Number = Finite(v: real) | PosInfinity | NegInfinity | NaN

  /** JavaScript `+`. */
  function Add(a: Number, b: Number): Number {
    match (a, b)
    case (NaN, _) => NaN
    case (_, NaN) => NaN
    case (PosInfinity, NegInfinity) => NaN
    case (NegInfinity, PosInfinity) => NaN
    case (PosInfinity, _) => PosInfinity
    case (_, PosInfinity) => PosInfinity
    case (NegInfinity, _) => NegInfinity
    case (_, NegInfinity) => NegInfinity
    case (Finite(x), Finite(y)) => Finite(x + y)
  }

  /** JavaScript `<`: false whenever NaN is involved. */
  predicate Less(a: Number, b: Number) {
    match (a, b)
    case (NaN, _) => false
    case (_, NaN) => false
    case (Finite(x), Finite(y)) => x < y
    case (NegInfinity, _) => b != NegInfinity
    case (_, PosInfinity) => a != PosInfinity
    case _ => false
  }

  /** `Math.abs(x - c) / c` for a positive table value `c`. */
  function Term(x: Number, c: PosReal): (t: Number)
    ensures x.Finite? ==> t.Finite? && t.v >= 0.0 && (t.v == 0.0 <==> x.v == c)
    ensures x.NaN? <==> t.NaN?
    ensures x.PosInfinity? || x.NegInfinity? ==> t.PosInfinity?
  {
    match x
    case Finite(v) => Finite(Abs(v - c) / c)
    case PosInfinity => PosInfinity
    case NegInfinity => PosInfinity
    case NaN => NaN
  }

  predicate AllFinite(xs: seq<Number>) {
    forall i :: 0 <= i < |xs| ==> xs[i].Finite?
  }

  predicate SomeNaN(xs: seq<Number>) {
    exists i :: 0 <= i < |xs| && xs[i].NaN?
  }

  /** The normalised L1 distance, the terms added left to right. */
  function Distance(xs: seq<Number>, cs: seq<PosReal>): (d: Number)
    requires |xs| == |cs|
    decreases |xs|
  {
    if xs == [] then Finite(0.0)
    else Add(Distance(xs[..|xs| - 1], cs[..|cs| - 1]), Term(xs[|xs| - 1], cs[|cs| - 1]))
  }

  /** A finite reading is at a finite, non-negative distance. */
  lemma {:induction false} DistanceFinite(xs: seq<Number>, cs: seq<PosReal>)
    requires |xs| == |cs| && AllFinite(xs)
    ensures Distance(xs, cs).Finite? && Distance(xs, cs).v >= 0.0
    decreases |xs|
  {
    if xs != [] {
      var n := |xs| - 1;
      assert AllFinite(xs[..n]) by {
        assert forall i :: 0 <= i < n ==> xs[..n][i] == xs[i];
      }
      DistanceFinite(xs[..n], cs[..n]);
    }
  }

  /** A finite reading that equals the values `cs`. */
  predicate Matches(xs: seq<Number>, cs: seq<PosReal>)
    requires |xs| == |cs|
  {
    forall i :: 0 <= i < |xs| ==> xs[i] == Finite(cs[i])
  }

  lemma MatchesSnoc(xs: seq<Number>, cs: seq<PosReal>)
    requires |xs| == |cs| > 0
    ensures var n := |xs| - 1;
      Matches(xs, cs) <==> Matches(xs[..n], cs[..n]) && xs[n] == Finite(cs[n])
  {
    var n := |xs| - 1;
    assert forall i :: 0 <= i < n ==> xs[..n][i] == xs[i] && cs[..n][i] == cs[i];
  }

  /** Two non-negative finite numbers add to zero only when both are zero. */
  lemma AddZero(a: Number, b: Number)
    requires a.Finite? && b.Finite? && a.v >= 0.0 && b.v >= 0.0
    ensures Add(a, b) == Finite(0.0) <==> a == Finite(0.0) && b == Finite(0.0)
  {
  }

  /** A finite reading is at distance zero exactly from its own profile. */
  lemma {:induction false} DistanceZero(xs: seq<Number>, cs: seq<PosReal>)
    requires |xs| == |cs| && AllFinite(xs)
    ensures Distance(xs, cs) == Finite(0.0) <==> Matches(xs, cs)
    decreases |xs|
  {
    if xs != [] {
      var n := |xs| - 1;
      assert AllFinite(xs[..n]) by {
        assert forall i :: 0 <= i < n ==> xs[..n][i] == xs[i];
      }
      var prefix := Distance(xs[..n], cs[..n]);
      var t := Term(xs[n], cs[n]);
      assert prefix == Finite(0.0) <==> Matches(xs[..n], cs[..n]) by {
        DistanceZero(xs[..n], cs[..n]);
      }
      assert t == Finite(0.0) <==> xs[n] == Finite(cs[n]);
      assert Distance(xs, cs) == Finite(0.0) <==> prefix == Finite(0.0) && t == Finite(0.0) by {
        DistanceFinite(xs[..n], cs[..n]);
        AddZero(prefix, t);
      }
      MatchesSnoc(xs, cs);
    }
  }

  /** A value that is not finite makes the distance NaN or +Infinity, which
      never compares below anything. */
  lemma {:induction false} DistanceNotFinite(xs: seq<Number>, cs: seq<PosReal>)
    requires |xs| == |cs| && !AllFinite(xs)
    ensures Distance(xs, cs).NaN? || Distance(xs, cs).PosInfinity?
    ensures SomeNaN(xs) ==> Distance(xs, cs).NaN?
    decreases |xs|
  {
    var n := |xs| - 1;
    var prefix := Distance(xs[..n], cs[..n]);
    assert forall i :: 0 <= i < n ==> xs[..n][i] == xs[i];
    if AllFinite(xs[..n]) {
      assert !xs[n].Finite?;
      DistanceFinite(xs[..n], cs[..n]);
    } else {
      DistanceNotFinite(xs[..n], cs[..n]);
      if SomeNaN(xs) && !SomeNaN(xs[..n]) {
        assert xs[n].NaN?;
      }
    }
  }

  /** The seven arguments of `predictCrop`. */
  datatype Reading = Reading(
    n: Number, p: Number, k: Number, temp: Number,
    humidity: Number, rainfall: Number, ph: Number)

  function ReadingValues(r: Reading): (v: seq<Number>)
    ensures |v| == 7
  {
    [r.n, r.p, r.k, r.temp, r.humidity, r.rainfall, r.ph]
  }

  /** The score of a profile for the reading. */
  function ScoreOf(r: Reading, c: Profile): Number {
    Distance(ReadingValues(r), ProfileValues(c))
  }

  /** The score of crop `i` for the reading. */
  function Score(r: Reading, i: nat): Number
    requires i < |Crops|
  {
    ScoreOf(r, Crops[i])
  }

  /** For a finite reading every score is a finite, non-negative number;
      otherwise none is below +Infinity. */
  lemma ScoreCases(r: Reading, c: Profile)
    ensures AllFinite(ReadingValues(r)) ==> ScoreOf(r, c).Finite? && ScoreOf(r, c).v >= 0.0
    ensures !AllFinite(ReadingValues(r)) ==> !Less(ScoreOf(r, c), PosInfinity)
  {
    if AllFinite(ReadingValues(r)) {
      DistanceFinite(ReadingValues(r), ProfileValues(c));
    } else {
      DistanceNotFinite(ReadingValues(r), ProfileValues(c));
    }
  }

  /** Row `i` of `table` has the smallest finite distance, and every row
      before it is strictly farther away. */
  predicate FirstNearestIn(table: seq<Profile>, r: Reading, i: nat)
    requires i < |table|
  {
    && ScoreOf(r, table[i]).Finite?
    && (forall j :: 0 <= j < |table| ==>
          ScoreOf(r, table[j]).Finite? && ScoreOf(r, table[i]).v <= ScoreOf(r, table[j]).v)
    && (forall j :: 0 <= j < i ==> ScoreOf(r, table[i]).v < ScoreOf(r, table[j]).v)
  }

  /** Crop `i` is the first nearest crop of the table. */
  predicate IsFirstNearest(r: Reading, i: nat)
    requires i < |Crops|
  {
    FirstNearestIn(Crops, r, i)
  }

  /** The loop of `predictCrop` over any table: a row replaces the best so
      far only when strictly closer, so the earliest nearest row wins; no
      row wins when a reading value is not finite. */
  method FirstNearest(table: seq<Profile>, r: Reading) returns (best: Option<nat>)
    ensures best.Some? <==> table != [] && AllFinite(ReadingValues(r))
    ensures best.Some? ==> best.value < |table| && FirstNearestIn(table, r, best.value)
  {
    best := None;
    var bestScore := PosInfinity;
    for i := 0 to |table|
      invariant best.None? <==> i == 0 || !AllFinite(ReadingValues(r))
      invariant best.None? ==> bestScore == PosInfinity
      invariant best.Some? ==> best.value < i && bestScore == ScoreOf(r, table[best.value]) && bestScore.Finite?
      invariant best.Some? ==> forall j :: 0 <= j < i ==> ScoreOf(r, table[j]).Finite? && bestScore.v <= ScoreOf(r, table[j]).v
      invariant best.Some? ==> forall j :: 0 <= j < best.value ==> bestScore.v < ScoreOf(r, table[j]).v
    {
      var score := ScoreOf(r, table[i]);
      ScoreCases(r, table[i]);
      if Less(score, bestScore) {
        bestScore := score;
        best := Some(i);
      }
    }
  }

  /** `predictCrop`: the name of the first nearest crop, or `null` when some
      reading value is not finite (NaN or an infinity fails every `<`). */
  method PredictCrop(r: Reading) returns (best: Option<string>)
    ensures best.Some? <==> AllFinite(ReadingValues(r))
    ensures best.Some? ==> exists i :: 0 <= i < |Crops| && IsFirstNearest(r, i) && Crops[i].name == best.value
  {
    var row := FirstNearest(Crops, r);
    if row.Some? {
      best := Some(Crops[row.value].name);
    } else {
      best := None;
    }
  }

  /** Rows differ in their nitrogen, phosphorus and potassium values. */
  function NpkKey(c: Profile): real {
    c.n * 1000000.0 + c.p * 1000.0 + c.k
  }

  /** The row indices ordered by `NpkKey`, and the inverse permutation. */
  const ByNpk: seq<nat> := [17, 18, 16, 19, 15, 29, 21, 5, 28, 3, 4, 26, 14, 0, 25, 2, 10, 8, 1, 6, 27, 12, 11, 9, 13, 22, 7, 24, 20, 23]
  const NpkRank: seq<nat> := [13, 18, 15, 9, 10, 7, 19, 26, 17, 23, 16, 22, 21, 24, 12, 4, 2, 0, 1, 3, 28, 6, 25, 29, 27, 14, 11, 20, 8, 5]

  /** Consecutive entries of `ByNpk` have increasing keys, checked in
      stretches of five. */
  lemma ByNpkIncreasing(m: nat)
    requires m + 1 < |ByNpk|
    ensures ByNpk[m] < |Crops| && ByNpk[m + 1] < |Crops|
    ensures NpkKey(Crops[ByNpk[m]]) < NpkKey(Crops[ByNpk[m + 1]])
  {
    if m < 5 {
      ByNpkIncreasingFrom0(m);
    } else if m < 10 {
      ByNpkIncreasingFrom5(m);
    } else if m < 15 {
      ByNpkIncreasingFrom10(m);
    } else if m < 20 {
      ByNpkIncreasingFrom15(m);
    } else if m < 25 {
      ByNpkIncreasingFrom20(m);
    } else {
      ByNpkIncreasingFrom25(m);
    }
  }

  lemma ByNpkIncreasingFrom0(m: nat)
    requires m < 5
    ensures ByNpk[m] < |Crops| && ByNpk[m + 1] < |Crops|
    ensures NpkKey(Crops[ByNpk[m]]) < NpkKey(Crops[ByNpk[m + 1]])
  {
    assert m == 0 || m == 1 || m == 2 || m == 3 || m == 4;
  }

  lemma ByNpkIncreasingFrom5(m: nat)
    requires 5 <= m < 10
    ensures ByNpk[m] < |Crops| && ByNpk[m + 1] < |Crops|
    ensures NpkKey(Crops[ByNpk[m]]) < NpkKey(Crops[ByNpk[m + 1]])
  {
    assert m == 5 || m == 6 || m == 7 || m == 8 || m == 9;
  }

  lemma ByNpkIncreasingFrom10(m: nat)
    requires 10 <= m < 15
    ensures ByNpk[m] < |Crops| && ByNpk[m + 1] < |Crops|
    ensures NpkKey(Crops[ByNpk[m]]) < NpkKey(Crops[ByNpk[m + 1]])
  {
    assert m == 10 || m == 11 || m == 12 || m == 13 || m == 14;
  }

  lemma ByNpkIncreasingFrom15(m: nat)
    requires 15 <= m < 20
    ensures ByNpk[m] < |Crops| && ByNpk[m + 1] < |Crops|
    ensures NpkKey(Crops[ByNpk[m]]) < NpkKey(Crops[ByNpk[m + 1]])
  {
    assert m == 15 || m == 16 || m == 17 || m == 18 || m == 19;
  }

  lemma ByNpkIncreasingFrom20(m: nat)
    requires 20 <= m < 25
    ensures ByNpk[m] < |Crops| && ByNpk[m + 1] < |Crops|
    ensures NpkKey(Crops[ByNpk[m]]) < NpkKey(Crops[ByNpk[m + 1]])
  {
    assert m == 20 || m == 21 || m == 22 || m == 23 || m == 24;
  }

  lemma ByNpkIncreasingFrom25(m: nat)
    requires 25 <= m && m + 1 < |ByNpk|
    ensures ByNpk[m] < |Crops| && ByNpk[m + 1] < |Crops|
    ensures NpkKey(Crops[ByNpk[m]]) < NpkKey(Crops[ByNpk[m + 1]])
  {
    assert m == 25 || m == 26 || m == 27 || m == 28;
  }

  lemma NpkRankInverse(i: nat)
    requires i < |Crops|
    ensures NpkRank[i] < |ByNpk| && ByNpk[NpkRank[i]] == i
  {
    assert i == 0 || i == 1 || i == 2 || i == 3 || i == 4 || i == 5 || i == 6 || i == 7 || i == 8 || i == 9 || i == 10 || i == 11 || i == 12 || i == 13 || i == 14 || i == 15 || i == 16 || i == 17 || i == 18 || i == 19 || i == 20 || i == 21 || i == 22 || i == 23 || i == 24 || i == 25 || i == 26 || i == 27 || i == 28 || i == 29;
  }

  /** Keys along `ByNpk` strictly increase. */
  lemma {:induction false} ByNpkStrict(a: nat, b: nat)
    requires a < b < |ByNpk|
    ensures ByNpk[a] < |Crops| && ByNpk[b] < |Crops|
    ensures NpkKey(Crops[ByNpk[a]]) < NpkKey(Crops[ByNpk[b]])
    decreases b - a
  {
    ByNpkIncreasing(a);
    if a + 1 < b {
      ByNpkStrict(a + 1, b);
    }
  }

  /** Profiles with different keys differ. */
  lemma KeyDiffers(c: Profile, d: Profile)
    requires NpkKey(c) != NpkKey(d)
    ensures ProfileValues(c) != ProfileValues(d)
  {
    var v, w := ProfileValues(c), ProfileValues(d);
    assert v[0] == c.n && v[1] == c.p && v[2] == c.k;
    assert w[0] == d.n && w[1] == d.p && w[2] == d.k;
  }

  /** No two rows of the table have the same profile. */
  lemma ProfilesDistinct(i: nat, j: nat)
    requires i < |Crops| && j < |Crops| && i != j
    ensures ProfileValues(Crops[i]) != ProfileValues(Crops[j])
  {
    NpkRankInverse(i);
    NpkRankInverse(j);
    var a, b := NpkRank[i], NpkRank[j];
    if a < b {
      ByNpkStrict(a, b);
    } else {
      ByNpkStrict(b, a);
    }
    KeyDiffers(Crops[i], Crops[j]);
  }

  /** The reading that equals a profile exactly. */
  function ReadingOf(c: Profile): (r: Reading)
    ensures AllFinite(ReadingValues(r))
  {
    Reading(Finite(c.n), Finite(c.p), Finite(c.k), Finite(c.temp),
      Finite(c.humidity), Finite(c.rainfall), Finite(c.ph))
  }

  lemma MatchesProfile(c: Profile, d: Profile)
    ensures Matches(ReadingValues(ReadingOf(c)), ProfileValues(d)) <==> ProfileValues(c) == ProfileValues(d)
  {
    var xs := ReadingValues(ReadingOf(c));
    if Matches(xs, ProfileValues(d)) {
      assert forall k :: 0 <= k < 7 ==> ProfileValues(c)[k] == ProfileValues(d)[k] by {
        forall k | 0 <= k < 7
          ensures ProfileValues(c)[k] == ProfileValues(d)[k]
        {
          assert xs[k] == Finite(ProfileValues(c)[k]);
        }
      }
    }
  }

  /** At most one row is the first nearest. */
  lemma FirstNearestUnique(table: seq<Profile>, r: Reading, i: nat, j: nat)
    requires i < |table| && j < |table|
    requires FirstNearestIn(table, r, i) && FirstNearestIn(table, r, j)
    ensures i == j
  {
  }

  /** In a table whose rows all differ from row `i`, the reading equal to
      row `i` selects row `i` and no other. */
  lemma ExactRowWins(table: seq<Profile>, i: nat)
    requires i < |table|
    requires forall j :: 0 <= j < |table| && j != i ==> ProfileValues(table[j]) != ProfileValues(table[i])
    ensures FirstNearestIn(table, ReadingOf(table[i]), i)
    ensures forall j :: 0 <= j < |table| && FirstNearestIn(table, ReadingOf(table[i]), j) ==> j == i
  {
    var r := ReadingOf(table[i]);
    MatchesProfile(table[i], table[i]);
    DistanceZero(ReadingValues(r), ProfileValues(table[i]));
    forall j | 0 <= j < |table|
      ensures ScoreOf(r, table[j]).Finite? && 0.0 <= ScoreOf(r, table[j]).v
      ensures j != i ==> 0.0 < ScoreOf(r, table[j]).v
    {
      DistanceFinite(ReadingValues(r), ProfileValues(table[j]));
      if j != i {
        MatchesProfile(table[i], table[j]);
        DistanceZero(ReadingValues(r), ProfileValues(table[j]));
      }
    }
    forall j | 0 <= j < |table| && FirstNearestIn(table, r, j)
      ensures j == i
    {
      FirstNearestUnique(table, r, i, j);
    }
  }

  /** A reading equal to a crop's profile selects that crop: its distance
      is zero and every other row differs from it. */
  lemma ExactProfileWins(i: nat)
    requires i < |Crops|
    ensures IsFirstNearest(ReadingOf(Crops[i]), i)
    ensures forall j :: 0 <= j < |Crops| && IsFirstNearest(ReadingOf(Crops[i]), j) ==> j == i
  {
    forall j | 0 <= j < |Crops| && j != i
      ensures ProfileValues(Crops[j]) != ProfileValues(Crops[i])
    {
      ProfilesDistinct(i, j);
    }
    ExactRowWins(Crops, i);
  }
}

=== FILE: numeric.dfy ===
/** Numeric helpers shared by the recommenders and the yield arithmetic.

    JavaScript numbers and Python floats are modelled as exact `real`s; the
    two rounding functions of the sources are written out explicitly:
    `Math.round` rounds halves up, Python's `round` rounds halves to even.
 */
module Numeric {

  /** The conventional optional value, standing in for `null` / `None`. */
  datatype Option<+T> = None | Some(value: T)

  function Abs(x: real): (r: real)
    ensures r >= 0.0
    ensures r == x || r == -x
  {
    if x < 0.0 then -x else x
  }

  function Min(a: real, b: real): (r: real)
    ensures r <= a && r <= b
    ensures r == a || r == b
  {
    if a <= b then a else b
  }

  function Max(a: real, b: real): (r: real)
    ensures r >= a && r >= b
    ensures r == a || r == b
  {
    if a >= b then a else b
  }

  function MinInt(a: int, b: int): (r: int)
    ensures r <= a && r <= b
    ensures r == a || r == b
  {
    if a <= b then a else b
  }

  /** `Math.min(hi, Math.max(lo, x))`: the value moved into `[lo, hi]`. */
  function Clamp(x: real, lo: real, hi: real): (r: real)
    requires lo <= hi
    ensures lo <= r <= hi
    ensures lo <= x <= hi ==> r == x
    ensures x < lo ==> r == lo
    ensures x > hi ==> r == hi
  {
    Min(hi, Max(lo, x))
  }

  /** JavaScript's `Math.round`: the unique integer in `(x - 1/2, x + 1/2]`. */
  function RoundHalfUp(x: real): (n: int)
    ensures x - 0.5 < n as real <= x + 0.5
  {
    (x + 0.5).Floor
  }

  /** Rounding never reverses the order of its arguments. */
  lemma RoundHalfUpMonotone(x: real, y: real)
    requires x <= y
    ensures RoundHalfUp(x) <= RoundHalfUp(y)
  {
  }

  predicate IsEven(n: int) {
    n % 2 == 0
  }

  /** Python's `round(x)`: the nearest integer, an exact half going to the
      even neighbour. */
  function RoundHalfEven(x: real): (n: int)
    ensures Abs(n as real - x) <= 0.5
    ensures Abs(n as real - x) == 0.5 ==> IsEven(n)
  {
    var f := x.Floor;
    var d := x - f as real;
    if d < 0.5 then f
    else if d > 0.5 then f + 1
    else if IsEven(f) then f
    else f + 1
  }

  /** Python's `round(x, 2)`: `x` to two decimal places. */
  function RoundTo2(x: real): (r: real)
    ensures Abs(r - x) <= 0.005
    ensures (r * 100.0).Floor as real == r * 100.0
    ensures Abs(r - x) == 0.005 ==> IsEven((r * 100.0).Floor)
  {
    var n := RoundHalfEven(x * 100.0);
    Hundredths(n, x);
    n as real / 100.0
  }

  /** `n` hundredths, for `n` the rounded `100 x`: a two-decimal value, at
      most 0.005 from `x`, and at exactly 0.005 with an even last digit. */
  lemma Hundredths(n: int, x: real)
    requires Abs(n as real - x * 100.0) <= 0.5
    requires Abs(n as real - x * 100.0) == 0.5 ==> IsEven(n)
    ensures (n as real / 100.0 * 100.0).Floor == n
    ensures Abs(n as real / 100.0 - x) <= 0.005
    ensures Abs(n as real / 100.0 - x) == 0.005 ==> IsEven((n as real / 100.0 * 100.0).Floor)
  {
    var r := n as real / 100.0;
    assert r * 100.0 == n as real;
    assert Abs(r - x) * 100.0 == Abs(n as real - x * 100.0) by {
      assert (r - x) * 100.0 == n as real - x * 100.0;
    }
  }
}

=== FILE: range_recommender.dfy ===
/** The rule-based crop recommender of the advisory page (`recommendCrop`).

    Every crop of the condition table is scored against the reading: full
    credit for each of the seven features inside the crop's inclusive range
    (weights 15, 14, 14, 18, 16, 14, 9, together 100) plus partial credit
    for closeness on nitrogen, temperature and pH (weights 7, 8, 7). The
    scores are sorted by a stable sort, descending; the first crop is the
    recommendation, its score gives a display confidence, and the next three
    are the alternatives.
 */
module RangeRecommender {
  import opened Numeric
  import opened CropTable

  /** The seven form inputs: N, P, K, temperature, humidity, pH, rainfall. */
  datatype Reading = Reading(n: real, p: real, k: real, t: real, h: real, ph: real, r: real)

  const WeightN: real := 15.0
  const WeightP: real := 14.0
  const WeightK: real := 14.0
  const WeightT: real := 18.0
  const WeightH: real := 16.0
  const WeightPh: real := 14.0
  const WeightR: real := 9.0
  const ProximityWeightN: real := 7.0
  const ProximityWeightT: real := 8.0
  const ProximityWeightPh: real := 7.0

  /** The highest score any crop can reach: 100 for the ranges plus 22 for
      proximity. */
  const MaxScore: real := 122.0

  /** `inRange`: both ends of the interval are included. */
  predicate InRange(v: real, r: Range) {
    r.lo <= v <= r.hi
  }

  /** `proximityScore`: 1 inside the range; outside it, one minus the
      distance to the midpoint over the full width (taken as 2 when the
      range is a single point, the `|| 1` guard), never below 0. */
  function ProximityScore(v: real, r: Range): (s: real)
    ensures 0.0 <= s
    ensures InRange(v, r) ==> s == 1.0
    ensures WellFormedRange(r) ==> s <= 1.0 && (s == 1.0 <==> InRange(v, r))
    ensures r.lo < r.hi && !InRange(v, r) ==> s < 0.5
  {
    if InRange(v, r) then 1.0
    else
      var mid := (r.lo + r.hi) / 2.0;
      var half := (r.hi - r.lo) / 2.0;
      var span := if half == 0.0 then 1.0 else half;
      var dist := Abs(v - mid);
      RatioAboveHalf(dist, half);
      Max(0.0, 1.0 - dist / (span * 2.0))
  }

  /** Outside a range of half-width `h`, the distance to the midpoint is
      more than `h`, so it is more than half the full width. */
  lemma RatioAboveHalf(d: real, h: real)
    ensures h > 0.0 && d > h ==> d / (h * 2.0) > 0.5
  {
    if h > 0.0 && d > h {
      assert d / (h * 2.0) == (d / h) / 2.0;
      assert d / h > 1.0;
    }
  }

  /** A value lies in a range exactly when it is at most half the width
      away from the midpoint. */
  lemma InRangeIffNearMid(v: real, r: Range)
    ensures InRange(v, r) <==> Abs(v - (r.lo + r.hi) / 2.0) <= (r.hi - r.lo) / 2.0
  {
  }

  lemma DivMonotone(a: real, b: real, c: real)
    requires c > 0.0 && a <= b
    ensures a / c <= b / c
  {
    assert b / c - a / c == (b - a) / c;
  }

  lemma DivBelowOne(a: real, c: real)
    requires c > 0.0
    ensures a / c < 1.0 <==> a < c
  {
    assert a / c * c == a;
  }

  /** The partial credit decays with the distance from the midpoint: a value
      no further from it never earns less. */
  lemma ProximityCloser(v1: real, v2: real, r: Range)
    requires WellFormedRange(r)
    requires Abs(v1 - (r.lo + r.hi) / 2.0) <= Abs(v2 - (r.lo + r.hi) / 2.0)
    ensures ProximityScore(v2, r) <= ProximityScore(v1, r)
  {
    InRangeIffNearMid(v1, r);
    InRangeIffNearMid(v2, r);
    if !InRange(v1, r) {
      var mid := (r.lo + r.hi) / 2.0;
      var half := (r.hi - r.lo) / 2.0;
      var span := if half == 0.0 then 1.0 else half;
      DivMonotone(Abs(v1 - mid), Abs(v2 - mid), span * 2.0);
    }
  }

  /** For a proper range the partial credit is positive exactly while the
      value is less than the range's full width away from its midpoint. */
  lemma ProximityPositive(v: real, r: Range)
    requires r.lo < r.hi
    ensures ProximityScore(v, r) > 0.0 <==> Abs(v - (r.lo + r.hi) / 2.0) < r.hi - r.lo
  {
    var mid := (r.lo + r.hi) / 2.0;
    var half := (r.hi - r.lo) / 2.0;
    InRangeIffNearMid(v, r);
    DivBelowOne(Abs(v - mid), half * 2.0);
    assert half * 2.0 == r.hi - r.lo;
  }

  /** The full weight when the value lies in the range, nothing otherwise. */
  function Credit(v: real, r: Range, weight: real): real {
    if InRange(v, r) then weight else 0.0
  }

  predicate AllInRange(x: Reading, c: Conditions) {
    && InRange(x.n, c.n) && InRange(x.p, c.p) && InRange(x.k, c.k)
    && InRange(x.t, c.t) && InRange(x.h, c.h) && InRange(x.ph, c.ph)
    && InRange(x.r, c.r)
  }

  /** The in-range part of the score: at most 100, reached exactly when all
      seven features are in range. */
  function RangeCredit(x: Reading, c: Conditions): (s: real)
    ensures 0.0 <= s <= 100.0
    ensures s == 100.0 <==> AllInRange(x, c)
  {
    Credit(x.n, c.n, WeightN) + Credit(x.p, c.p, WeightP) + Credit(x.k, c.k, WeightK)
    + Credit(x.t, c.t, WeightT) + Credit(x.h, c.h, WeightH) + Credit(x.ph, c.ph, WeightPh)
    + Credit(x.r, c.r, WeightR)
  }

  /** The proximity part of the score: at most 7 + 8 + 7 = 22, reached
      exactly when N, temperature and pH are all in range. */
  function ProximityCredit(x: Reading, c: Conditions): (s: real)
    ensures 0.0 <= s
    ensures WellFormed(c) ==> s <= 22.0
    ensures WellFormed(c) ==> (s == 22.0 <==> InRange(x.n, c.n) && InRange(x.t, c.t) && InRange(x.ph, c.ph))
  {
    ProximityScore(x.n, c.n) * ProximityWeightN
    + ProximityScore(x.t, c.t) * ProximityWeightT
    + ProximityScore(x.ph, c.ph) * ProximityWeightPh
  }

  /** The score of one crop's conditions against the reading. */
  function Score(x: Reading, c: Conditions): (s: real)
    ensures 0.0 <= s
    ensures WellFormed(c) ==> s <= MaxScore
    ensures WellFormed(c) ==> (s == MaxScore <==> AllInRange(x, c))
  {
    RangeCredit(x, c) + ProximityCredit(x, c)
  }

  function CropScore(x: Reading, c: Crop): real {
    Score(x, ConditionsOf(c))
  }

  /** The ranking order: a higher score first, and among equal scores the
      crop declared first in the table (what a stable sort keeps). */
  predicate CropPrecedes(x: Reading, a: Crop, b: Crop) {
    CropScore(x, a) > CropScore(x, b) || (CropScore(x, a) == CropScore(x, b) && Pos(a) < Pos(b))
  }

  /** One `{ crop, score }` record, with its position in the table. */
  datatype Ranked = Ranked(crop: Crop, pos: nat, score: real)

  predicate Precedes(a: Ranked, b: Ranked) {
    a.score > b.score || (a.score == b.score && a.pos < b.pos)
  }

  /** Every record comes strictly before every later one. */
  predicate RankedOrder(s: seq<Ranked>) {
    forall i, j :: 0 <= i < j < |s| ==> Precedes(s[i], s[j])
  }

  /** The records are in table order. */
  predicate IncreasingPos(s: seq<Ranked>) {
    forall i, j :: 0 <= i < j < |s| ==> s[i].pos < s[j].pos
  }

  /** A record that really is crop `e.crop` at its table position with its
      score for `x`. */
  predicate Faithful(x: Reading, e: Ranked) {
    e.pos == Pos(e.crop) && e.score == CropScore(x, e.crop)
  }

  /** The `scores` array built by the `forEach` over the condition table. */
  function Scores(x: Reading): (s: seq<Ranked>)
    ensures |s| == |AllCrops|
    ensures IncreasingPos(s)
    ensures forall i :: 0 <= i < |s| ==> s[i].crop == AllCrops[i] && Faithful(x, s[i])
  {
    AllCropsDistinct();
    seq(|AllCrops|, i requires 0 <= i < |AllCrops| => Ranked(AllCrops[i], i, CropScore(x, AllCrops[i])))
  }

  /** One step of a stable insertion sort by descending score: `e` goes
      after every record whose score is at least its own. */
  function Insert(e: Ranked, s: seq<Ranked>): (r: seq<Ranked>)
    ensures multiset(r) == multiset(s) + multiset{e}
    ensures |r| == |s| + 1
  {
    if s == [] then [e]
    else if e.score > s[0].score then [e] + s
    else
      assert s == [s[0]] + s[1..];
      [s[0]] + Insert(e, s[1..])
  }

  /** Inserting a record that comes later in the table than every record
      already sorted keeps the ranking order. */
  lemma {:induction false} InsertOrdered(e: Ranked, s: seq<Ranked>)
    requires RankedOrder(s)
    requires forall y :: y in s ==> y.pos < e.pos
    ensures RankedOrder(Insert(e, s))
  {
    if s == [] {
    } else if e.score > s[0].score {
      var r := [e] + s;
      forall i, j | 0 <= i < j < |r| ensures Precedes(r[i], r[j]) {
        if i == 0 {
          assert r[j] == s[j - 1];
          assert j - 1 == 0 || Precedes(s[0], s[j - 1]);
        } else {
          assert r[i] == s[i - 1] && r[j] == s[j - 1];
        }
      }
    } else {
      var tail := Insert(e, s[1..]);
      InsertOrdered(e, s[1..]);
      var r := [s[0]] + tail;
      forall i, j | 0 <= i < j < |r| ensures Precedes(r[i], r[j]) {
        if i == 0 {
          assert r[j] == tail[j - 1];
          assert r[j] in multiset(s[1..]) + multiset{e} by {
            assert r[j] in multiset(tail);
          }
          if r[j] != e {
            var k :| 0 <= k < |s[1..]| && s[1..][k] == r[j];
            assert Precedes(s[0], s[k + 1]);
          }
        } else {
          assert r[i] == tail[i - 1] && r[j] == tail[j - 1];
        }
      }
    }
  }

  /** `scores.sort((a, b) => b.score - a.score)`, a stable sort: the
      records are inserted one by one in their original order. */
  function SortByScore(s: seq<Ranked>): (r: seq<Ranked>)
    ensures multiset(r) == multiset(s)
    ensures |r| == |s|
  {
    if s == [] then []
    else
      assert s == s[..|s| - 1] + [s[|s| - 1]];
      Insert(s[|s| - 1], SortByScore(s[..|s| - 1]))
  }

  /** Sorting records that are in table order yields the ranking order:
      descending by score, ties in table order. */
  lemma {:induction false} SortByScoreOrdered(s: seq<Ranked>)
    requires IncreasingPos(s)
    ensures RankedOrder(SortByScore(s))
  {
    if s != [] {
      var init := s[..|s| - 1];
      SortByScoreOrdered(init);
      forall y | y in SortByScore(init) ensures y.pos < s[|s| - 1].pos {
        assert y in multiset(init);
        var k :| 0 <= k < |init| && init[k] == y;
      }
      InsertOrdered(s[|s| - 1], SortByScore(init));
    }
  }

  /** The ranked list of a reading, with what the rest of the model needs
      about it: a permutation of the table in ranking order. */
  function Ranking(x: Reading): (r: seq<Ranked>)
    ensures |r| == |AllCrops|
    ensures RankedOrder(r)
    ensures forall e :: e in r ==> Faithful(x, e)
    ensures forall c: Crop :: Ranked(c, Pos(c), CropScore(x, c)) in r
  {
    var s := Scores(x);
    SortByScoreOrdered(s);
    var r := SortByScore(s);
    assert forall e :: e in r ==> e in multiset(s);
    assert forall c: Crop :: s[Pos(c)] == Ranked(c, Pos(c), CropScore(x, c));
    assert forall c: Crop :: Ranked(c, Pos(c), CropScore(x, c)) in multiset(r);
    r
  }

  /** `Math.min(99, Math.round(60 + (score / 100) * 39))`: a display figure,
      not a probability. */
  function Confidence(topScore: real): (pct: int)
    ensures topScore >= 0.0 ==> 60 <= pct
    ensures pct <= 99
    ensures Abs(pct as real - Min(99.0, 60.0 + topScore / 100.0 * 39.0)) <= 0.5
  {
    MinInt(99, RoundHalfUp(60.0 + (topScore / 100.0) * 39.0))
  }

  /** A better top score never lowers the confidence, and any top score of
      roughly 99 or more shows the ceiling of 99. */
  lemma ConfidenceMonotone(s1: real, s2: real)
    requires s1 <= s2
    ensures Confidence(s1) <= Confidence(s2)
    ensures s1 >= 99.0 ==> Confidence(s1) == 99
  {
    RoundHalfUpMonotone(60.0 + (s1 / 100.0) * 39.0, 60.0 + (s2 / 100.0) * 39.0);
  }

  /** What `recommendCrop` returns. */
  datatype Recommendation = Recommendation(best: Crop, confidence: int, alternatives: seq<Crop>)

  /** Distinct records of a ranking are distinct crops. */
  lemma RankedCropsDistinct(x: Reading, r: seq<Ranked>, i: int, j: int)
    requires RankedOrder(r)
    requires forall e :: e in r ==> Faithful(x, e)
    requires 0 <= i < j < |r|
    ensures r[i].crop != r[j].crop
  {
    assert Precedes(r[i], r[j]);
    assert Faithful(x, r[i]) && Faithful(x, r[j]);
  }

  /** No crop appears twice in a ranking. */
  lemma RankingDistinct(x: Reading)
    ensures forall i, j :: 0 <= i < j < |Ranking(x)| ==> Ranking(x)[i].crop != Ranking(x)[j].crop
  {
    var r := Ranking(x);
    forall i, j | 0 <= i < j < |r|
      ensures r[i].crop != r[j].crop
    {
      RankedCropsDistinct(x, r, i, j);
    }
  }

  /** `recommendCrop`: the best crop, a confidence in the display band
      [60, 99], and three alternatives that are distinct from each other
      and from the best crop. */
  function RecommendCrop(x: Reading): (rec: Recommendation)
    ensures 60 <= rec.confidence <= 99
    ensures |rec.alternatives| == 3
    ensures rec.best != rec.alternatives[0] && rec.best != rec.alternatives[1] && rec.best != rec.alternatives[2]
    ensures rec.alternatives[0] != rec.alternatives[1] && rec.alternatives[0] != rec.alternatives[2]
    ensures rec.alternatives[1] != rec.alternatives[2]
  {
    var r := Ranking(x);
    RankingDistinct(x);
    assert r[0].crop != r[1].crop && r[0].crop != r[2].crop && r[0].crop != r[3].crop;
    assert r[1].crop != r[2].crop && r[1].crop != r[3].crop && r[2].crop != r[3].crop;
    Recommendation(r[0].crop, Confidence(r[0].score), [r[1].crop, r[2].crop, r[3].crop])
  }

  /** The recommendation is the first crop of the table with the highest
      score: every other crop scores lower, or the same and later. */
  lemma BestIsFirstMaximum(x: Reading)
    ensures forall c: Crop :: c != RecommendCrop(x).best ==> CropPrecedes(x, RecommendCrop(x).best, c)
    ensures forall c: Crop :: CropScore(x, c) <= CropScore(x, RecommendCrop(x).best)
    ensures RecommendCrop(x).confidence == Confidence(CropScore(x, RecommendCrop(x).best))
  {
    var r := Ranking(x);
    assert Faithful(x, r[0]);
    forall c: Crop | c != r[0].crop ensures CropPrecedes(x, r[0].crop, c) {
      var e := Ranked(c, Pos(c), CropScore(x, c));
      var j :| 0 <= j < |r| && r[j] == e;
      assert j != 0;
      assert Precedes(r[0], r[j]);
    }
  }

  /** The alternatives are the crops ranked second to fourth, in ranking
      order after the best crop. */
  lemma AlternativesInOrder(x: Reading)
    ensures var rec := RecommendCrop(x);
      && CropPrecedes(x, rec.best, rec.alternatives[0])
      && CropPrecedes(x, rec.alternatives[0], rec.alternatives[1])
      && CropPrecedes(x, rec.alternatives[1], rec.alternatives[2])
  {
    var r := Ranking(x);
    assert RecommendCrop(x).alternatives == [r[1].crop, r[2].crop, r[3].crop];
    assert Faithful(x, r[0]) && Faithful(x, r[1]) && Faithful(x, r[2]) && Faithful(x, r[3]);
    assert Precedes(r[0], r[1]) && Precedes(r[1], r[2]) && Precedes(r[2], r[3]);
  }

  /** Every crop that is neither the recommendation nor an alternative is
      ranked after the third alternative. */
  lemma AlternativesAheadOfRest(x: Reading)
    ensures var rec := RecommendCrop(x);
      forall c: Crop :: c != rec.best && c !in rec.alternatives ==> CropPrecedes(x, rec.alternatives[2], c)
  {
    var r := Ranking(x);
    var rec := RecommendCrop(x);
    assert rec.best == r[0].crop;
    assert rec.alternatives == [r[1].crop, r[2].crop, r[3].crop];
    assert Faithful(x, r[3]);
    forall c: Crop | c != rec.best && c !in rec.alternatives
      ensures CropPrecedes(x, rec.alternatives[2], c)
    {
      var e := Ranked(c, Pos(c), CropScore(x, c));
      var j :| 0 <= j < |r| && r[j] == e;
      assert j >= 4;
      assert Precedes(r[3], r[j]);
    }
  }

  /** A reading inside every range of some crop (its range midpoints, for
      instance) gives the maximal score 122 to the recommendation, which is
      the first crop of the table whose ranges all contain the reading. */
  lemma BestWhenAllInRange(x: Reading, c: Crop)
    requires AllInRange(x, ConditionsOf(c))
    ensures AllInRange(x, ConditionsOf(RecommendCrop(x).best))
    ensures CropScore(x, RecommendCrop(x).best) == MaxScore
    ensures Pos(RecommendCrop(x).best) <= Pos(c)
    ensures RecommendCrop(x).confidence == 99
  {
    BestIsFirstMaximum(x);
    var best := RecommendCrop(x).best;
    assert CropScore(x, c) == MaxScore;
    assert CropScore(x, best) == MaxScore;
    if c != best {
      assert CropPrecedes(x, best, c);
    }
    ConfidenceMonotone(99.0, MaxScore);
  }

  /** The reading N=80, P=40, K=40, T=26, H=82, pH=6.2, R=210 lies inside
      every range of rice, the first crop, so rice is recommended. */
  lemma RiceReadingRecommendsRice()
    ensures RecommendCrop(Reading(80.0, 40.0, 40.0, 26.0, 82.0, 6.2, 210.0)).best == Rice
  {
    var x := Reading(80.0, 40.0, 40.0, 26.0, 82.0, 6.2, 210.0);
    BestWhenAllInRange(x, Rice);
  }
}

=== FILE: text.dfy ===
/** String helpers shared by the JavaScript and the Python sources:
    first-letter capitalisation, lower-casing, Python's `str.strip` and
    substring containment (`needle in haystack`).

    Case mapping covers the ASCII letters only; every other character is
    left as it is.
 */
module Text {

  function UpperChar(c: char): (u: char)
    ensures 'a' <= c <= 'z' ==> 'A' <= u <= 'Z' && u as int == c as int - 32
    ensures !('a' <= c <= 'z') ==> u == c
  {
    if 'a' <= c <= 'z' then (c as int - 32) as char else c
  }

  function LowerChar(c: char): (l: char)
    ensures 'A' <= c <= 'Z' ==> 'a' <= l <= 'z' && l as int == c as int + 32
    ensures !('A' <= c <= 'Z') ==> l == c
  {
    if 'A' <= c <= 'Z' then (c as int + 32) as char else c
  }

  /** `s.lower()` / `s.toLowerCase()`, character by character. */
  function Lower(s: string): (r: string)
    ensures |r| == |s|
    ensures forall i :: 0 <= i < |s| ==> r[i] == LowerChar(s[i])
  {
    seq(|s|, i requires 0 <= i < |s| => LowerChar(s[i]))
  }

  /** Lower-casing twice changes nothing more than lower-casing once. */
  lemma LowerIdempotent(s: string)
    ensures Lower(Lower(s)) == Lower(s)
  {
  }

  /** `str.charAt(0).toUpperCase() + str.slice(1)`: the first character
      upper-cased, the rest unchanged; the empty string stays empty. */
  function Capitalize(s: string): (r: string)
    ensures |r| == |s|
    ensures |s| > 0 ==> r[0] == UpperChar(s[0])
    ensures |s| > 0 ==> r[1..] == s[1..]
  {
    if s == [] then [] else [UpperChar(s[0])] + s[1..]
  }

  /** Capitalising an already capitalised string changes nothing. */
  lemma CapitalizeIdempotent(s: string)
    ensures Capitalize(Capitalize(s)) == Capitalize(s)
  {
  }

  /** The whitespace Python's `str.strip()` removes, restricted to ASCII:
      space, tab, line feed, vertical tab, form feed and carriage return,
      and the four ASCII separator characters 0x1C to 0x1F. */
  predicate IsSpace(c: char) {
    c == ' ' || c == '\t' || c == '\n' || c == '\r' || c == '\U{0B}' || c == '\U{0C}'
    || ('\U{1C}' <= c <= '\U{1F}')
  }

  predicate AllSpace(s: string) {
    forall i :: 0 <= i < |s| ==> IsSpace(s[i])
  }

  /** The first position at or after `i` that is not whitespace, or `|s|`. */
  function SkipSpace(s: string, i: nat): (k: nat)
    requires i <= |s|
    ensures i <= k <= |s|
    ensures forall j :: i <= j < k ==> IsSpace(s[j])
    ensures k == |s| || !IsSpace(s[k])
    decreases |s| - i
  {
    if i < |s| && IsSpace(s[i]) then SkipSpace(s, i + 1) else i
  }

  /** The end of `s[lo..j]` once its trailing whitespace is dropped. */
  function SkipSpaceBack(s: string, lo: nat, j: nat): (k: nat)
    requires lo <= j <= |s|
    ensures lo <= k <= j
    ensures forall m :: k <= m < j ==> IsSpace(s[m])
    ensures k == lo || !IsSpace(s[k - 1])
    decreases j - lo
  {
    if lo < j && IsSpace(s[j - 1]) then SkipSpaceBack(s, lo, j - 1) else j
  }

  /** Python's `s.strip()`: `s` without its leading and trailing whitespace;
      neither end of the result is whitespace. */
  function Strip(s: string): (r: string)
    ensures |r| <= |s|
    ensures r == [] || (!IsSpace(r[0]) && !IsSpace(r[|r| - 1]))
  {
    var a := SkipSpace(s, 0);
    s[a..SkipSpaceBack(s, a, |s|)]
  }

  /** What `Strip` keeps is one slice of `s`, and everything it removed on
      either side is whitespace. */
  lemma StripSlice(s: string) returns (a: nat, b: nat)
    ensures a <= b <= |s|
    ensures Strip(s) == s[a..b]
    ensures forall i :: 0 <= i < a ==> IsSpace(s[i])
    ensures forall i :: b <= i < |s| ==> IsSpace(s[i])
  {
    a := SkipSpace(s, 0);
    b := SkipSpaceBack(s, a, |s|);
  }

  /** Stripping is idempotent: a stripped string has nothing left to strip. */
  lemma StripIdempotent(s: string)
    ensures Strip(Strip(s)) == Strip(s)
  {
    var r := Strip(s);
    assert SkipSpace(r, 0) == 0;
    assert SkipSpaceBack(r, 0, |r|) == |r|;
    assert r[0..|r|] == r;
  }

  /** Stripping yields the empty string exactly when `s` is all whitespace. */
  lemma StripEmptyIff(s: string)
    ensures Strip(s) == [] <==> AllSpace(s)
  {
    var a, b := StripSlice(s);
    if AllSpace(s) {
      assert SkipSpace(s, 0) == |s|;
    }
  }

  /** `needle in haystack` for strings, scanned from the left. */
  function Contains(haystack: string, needle: string): bool
    decreases |haystack|
  {
    if needle <= haystack then true
    else if haystack == [] then false
    else Contains(haystack[1..], needle)
  }

  /** The needle occurs in the haystack at position `i`. */
  predicate OccursAt(haystack: string, needle: string, i: int) {
    0 <= i <= |haystack| - |needle| && haystack[i..i + |needle|] == needle
  }

  /** What the scan finds really occurs in the haystack. */
  lemma {:induction false} ContainsWitness(haystack: string, needle: string) returns (i: nat)
    requires Contains(haystack, needle)
    ensures OccursAt(haystack, needle, i)
    decreases |haystack|
  {
    if needle <= haystack {
      i := 0;
      assert haystack[0..|needle|] == needle;
    } else {
      var j := ContainsWitness(haystack[1..], needle);
      i := j + 1;
      assert haystack[i..i + |needle|] == haystack[1..][j..j + |needle|];
    }
  }

  /** An occurrence anywhere is found by the scan. */
  lemma {:induction false} OccurrenceFound(haystack: string, needle: string, i: nat)
    requires OccursAt(haystack, needle, i)
    ensures Contains(haystack, needle)
    decreases i
  {
    if i == 0 {
      assert needle == haystack[..|needle|];
    } else if !(needle <= haystack) {
      assert haystack[1..][i - 1..i - 1 + |needle|] == haystack[i..i + |needle|];
      OccurrenceFound(haystack[1..], needle, i - 1);
    }
  }

  /** The scan agrees with the definition of containment: the needle is
      found exactly when it occurs at some position. */
  lemma ContainsIff(haystack: string, needle: string)
    ensures Contains(haystack, needle) <==> exists i :: OccursAt(haystack, needle, i)
  {
    if Contains(haystack, needle) {
      var i := ContainsWitness(haystack, needle);
    }
    if exists i :: OccursAt(haystack, needle, i) {
      var i :| OccursAt(haystack, needle, i);
      OccurrenceFound(haystack, needle, i);
    }
  }

  /** Every string contains the empty string and itself. */
  lemma ContainsSelfAndEmpty(s: string)
    ensures Contains(s, [])
    ensures Contains(s, s)
  {
  }
}

=== FILE: yield_estimator.dfy ===
/** The client-side yield estimate (`renderYieldResult`) and the rule list
    shown beside it (`buildInsights`), without the page rendering.

    The crop's base yield per hectare is multiplied by a state factor and a
    season factor (1.0 for unknown keys), a clamped rainfall factor, a
    capped fertiliser factor, a temperature penalty with a floor, a capped
    pesticide factor and a random jitter. The jitter, `0.95 + Math.random()
    * 0.1`, is a parameter here; it lies in `[0.95, 1.05)`.
 */
module YieldEstimator {
  import opened Numeric
  import opened CropTable

  /** `STATE_FACTOR`: regional multipliers. */
  const StateFactors: map<string, real> := map[
    "andhra_pradesh" := 1.05, "assam" := 0.92, "bihar" := 0.88, "gujarat" := 1.02,
    "haryana" := 1.15, "karnataka" := 1.00, "kerala" := 1.08,
    "madhya_pradesh" := 0.95, "maharashtra" := 1.00, "odisha" := 0.90,
    "punjab" := 1.20, "rajasthan" := 0.85, "tamil_nadu" := 1.05,
    "telangana" := 1.03, "uttar_pradesh" := 1.00, "west_bengal" := 1.02
  ]

  /** `SEASON_FACTOR`: seasonal multipliers. */
  const SeasonFactors: map<string, real> := map[
    "kharif" := 1.05, "rabi" := 1.00, "zaid" := 0.90, "whole_year" := 1.10
  ]

  /** `STATE_FACTOR[state] || 1.0`: no factor is zero, so the default only
      applies to states missing from the table. */
  function StateFactor(state: string): (f: real)
    ensures state !in StateFactors ==> f == 1.0
    ensures 0.85 <= f <= 1.2
  {
    if state in StateFactors then StateFactors[state] else 1.0
  }

  /** `SEASON_FACTOR[season] || 1.0`. */
  function SeasonFactor(season: string): (f: real)
    ensures season !in SeasonFactors ==> f == 1.0
    ensures 0.9 <= f <= 1.1
  {
    if season in SeasonFactors then SeasonFactors[season] else 1.0
  }

  /** `Math.min(1.15, Math.max(0.7, rainfall / 1200))`. */
  function RainFactor(rainfall: real): (f: real)
    ensures 0.7 <= f <= 1.15
    ensures 840.0 <= rainfall <= 1380.0 ==> f == rainfall / 1200.0
  {
    Clamp(rainfall / 1200.0, 0.7, 1.15)
  }

  lemma RainFactorMonotone(r1: real, r2: real)
    requires r1 <= r2
    ensures RainFactor(r1) <= RainFactor(r2)
  {
  }

  /** `1 + Math.min(0.3, fertiliser / 600)`: diminishing returns, capped at
      1.3 from 180 kg upward. */
  function FertiliserFactor(fertiliser: real): (f: real)
    ensures f <= 1.3
    ensures fertiliser >= 0.0 ==> 1.0 <= f
    ensures fertiliser >= 180.0 ==> f == 1.3
    ensures fertiliser <= 180.0 ==> f == 1.0 + fertiliser / 600.0
  {
    1.0 + Min(0.3, fertiliser / 600.0)
  }

  lemma FertiliserFactorMonotone(f1: real, f2: real)
    requires f1 <= f2
    ensures FertiliserFactor(f1) <= FertiliserFactor(f2)
  {
  }

  /** The optimum temperature of the penalty. */
  const OptimumTemp: real := 26.0

  /** `Math.max(0.75, 1 - |temp - 26| / 10 * 0.15)`. */
  function TemperatureFactor(temp: real): (f: real)
    ensures 0.75 <= f <= 1.0
    ensures f == 1.0 <==> temp == OptimumTemp
  {
    Max(0.75, 1.0 - Abs(temp - OptimumTemp) / 10.0 * 0.15)
  }

  /** Moving away from 26 °C never raises the factor, and lowers it strictly
      until the floor of 0.75 is reached. */
  lemma TemperatureFactorMonotone(t1: real, t2: real)
    requires Abs(t1 - OptimumTemp) <= Abs(t2 - OptimumTemp)
    ensures TemperatureFactor(t2) <= TemperatureFactor(t1)
    ensures Abs(t1 - OptimumTemp) < Abs(t2 - OptimumTemp) && TemperatureFactor(t1) > 0.75 ==>
      TemperatureFactor(t2) < TemperatureFactor(t1)
  {
  }

  /** `1 + Math.min(0.1, pesticide / 100)`. */
  function PesticideFactor(pesticide: real): (f: real)
    ensures f <= 1.1
    ensures pesticide >= 0.0 ==> 1.0 <= f
    ensures pesticide >= 10.0 ==> f == 1.1
  {
    1.0 + Min(0.1, pesticide / 100.0)
  }

  /** The fields of the yield form other than the crop, whose table entry
      (`CropTable.InfoOrRice`: rice's for an unknown crop) is passed
      alongside. */
  datatype YieldInput = YieldInput(
    season: string, state: string, area: real,
    rainfall: real, fertiliser: real, pesticide: real, temp: real)

  /** The values `0.95 + Math.random() * 0.1` can take. */
  predicate ValidJitter(jitter: real) {
    0.95 <= jitter < 1.05
  }

  /** The seven multipliers applied to the base yield, in the order they
      are applied. */
  datatype Factors = Factors(
    state: real, season: real, rain: real, fertiliser: real,
    temperature: real, pesticide: real, jitter: real)

  function Multipliers(fs: Factors): (m: seq<real>)
    ensures |m| == 7
  {
    [fs.state, fs.season, fs.rain, fs.fertiliser, fs.temperature, fs.pesticide, fs.jitter]
  }

  /** The product of a list of multipliers, applied left to right. */
  function Product(xs: seq<real>): real
    decreases |xs|
  {
    if xs == [] then 1.0 else Product(xs[..|xs| - 1]) * xs[|xs| - 1]
  }

  lemma ProductSnoc(xs: seq<real>, x: real)
    ensures Product(xs + [x]) == Product(xs) * x
  {
    assert (xs + [x])[..|xs|] == xs;
  }

  lemma ProductOfSeven(a: real, b: real, c: real, d: real, e: real, f: real, g: real)
    ensures Product([a, b, c, d, e, f, g]) == a * b * c * d * e * f * g
  {
    ProductSnoc([], a);
    assert [] + [a] == [a];
    ProductSnoc([a], b);
    assert [a] + [b] == [a, b];
    ProductSnoc([a, b], c);
    assert [a, b] + [c] == [a, b, c];
    ProductSnoc([a, b, c], d);
    assert [a, b, c] + [d] == [a, b, c, d];
    ProductSnoc([a, b, c, d], e);
    assert [a, b, c, d] + [e] == [a, b, c, d, e];
    ProductSnoc([a, b, c, d, e], f);
    assert [a, b, c, d, e] + [f] == [a, b, c, d, e, f];
    ProductSnoc([a, b, c, d, e, f], g);
    assert [a, b, c, d, e, f] + [g] == [a, b, c, d, e, f, g];
  }

  /** Every multiplier lies between the matching non-negative bounds. */
  predicate Within(xs: seq<real>, lo: seq<real>, hi: seq<real>) {
    && |xs| == |lo| == |hi|
    && forall i :: 0 <= i < |xs| ==> 0.0 <= lo[i] <= xs[i] <= hi[i]
  }

  lemma MulBounds(a: real, b: real, loA: real, hiA: real, loB: real, hiB: real)
    requires 0.0 <= loA <= a <= hiA && 0.0 <= loB <= b <= hiB
    ensures 0.0 <= loA * loB <= a * b <= hiA * hiB
  {
    assert loA * loB <= a * loB;
    assert a * loB <= a * b;
    assert a * b <= hiA * b;
    assert hiA * b <= hiA * hiB;
  }

  /** Bounds on every multiplier bound the product. */
  lemma {:induction false} ProductWithin(xs: seq<real>, lo: seq<real>, hi: seq<real>)
    requires Within(xs, lo, hi)
    ensures 0.0 <= Product(lo) <= Product(xs) <= Product(hi)
    decreases |xs|
  {
    if xs != [] {
      var n := |xs| - 1;
      ProductWithin(xs[..n], lo[..n], hi[..n]);
      MulBounds(Product(xs[..n]), xs[n], Product(lo[..n]), Product(hi[..n]), lo[n], hi[n]);
    }
  }

  lemma {:induction false} ProductNonNegative(xs: seq<real>)
    requires forall i :: 0 <= i < |xs| ==> xs[i] >= 0.0
    ensures Product(xs) >= 0.0
    decreases |xs|
  {
    if xs != [] {
      var n := |xs| - 1;
      ProductNonNegative(xs[..n]);
      MulBounds(Product(xs[..n]), xs[n], 0.0, Product(xs[..n]), 0.0, xs[n]);
    }
  }

  /** A non-negative multiplier keeps a product monotone. */
  lemma MulMonotone(k: real, a: real, b: real)
    requires k >= 0.0 && a <= b
    ensures k * a <= k * b
  {
  }

  /** Raising one multiplier, all the others non-negative, never lowers the
      product. */
  lemma {:induction false} ProductMonotoneAt(xs: seq<real>, i: nat, g: real)
    requires i < |xs| && xs[i] <= g
    requires forall j :: 0 <= j < |xs| && j != i ==> xs[j] >= 0.0
    ensures Product(xs) <= Product(xs[i := g])
    decreases |xs|
  {
    var n := |xs| - 1;
    var ys := xs[i := g];
    if i == n {
      assert ys[..n] == xs[..n];
      ProductNonNegative(xs[..n]);
      MulMonotone(Product(xs[..n]), xs[n], g);
    } else {
      assert ys[..n] == xs[..n][i := g];
      ProductMonotoneAt(xs[..n], i, g);
      MulMonotone(xs[n], Product(xs[..n]), Product(ys[..n]));
    }
  }

  /** The lowest and highest value of each multiplier for non-negative
      fertiliser and pesticide and a jitter from `Math.random`. */
  const LowFactors: seq<real> := [0.85, 0.9, 0.7, 1.0, 0.75, 1.0, 0.95]
  const HighFactors: seq<real> := [1.2, 1.1, 1.15, 1.3, 1.0, 1.1, 1.05]

  function FactorsOf(input: YieldInput, jitter: real): (fs: Factors)
    ensures input.fertiliser >= 0.0 && input.pesticide >= 0.0 && ValidJitter(jitter) ==>
      Within(Multipliers(fs), LowFactors, HighFactors)
  {
    Factors(StateFactor(input.state), SeasonFactor(input.season), RainFactor(input.rainfall),
      FertiliserFactor(input.fertiliser), TemperatureFactor(input.temp),
      PesticideFactor(input.pesticide), jitter)
  }

  /** The product of all adjustment factors, jitter included. */
  function Adjustment(input: YieldInput, jitter: real): real {
    Product(Multipliers(FactorsOf(input, jitter)))
  }

  /** Tonnes per hectare before rounding. */
  function UnroundedYield(info: CropInfo, input: YieldInput, jitter: real): real {
    info.baseYield * Adjustment(input, jitter)
  }

  /** The extreme products are about 0.38 and 2.28. */
  lemma ExtremeAdjustments()
    ensures 0.38 < Product(LowFactors) < 0.39
    ensures 2.27 < Product(HighFactors) < 2.28
  {
    ProductOfSeven(0.85, 0.9, 0.7, 1.0, 0.75, 1.0, 0.95);
    ProductOfSeven(1.2, 1.1, 1.15, 1.3, 1.0, 1.1, 1.05);
  }

  /** For non-negative fertiliser and pesticide the estimate stays between
      the base yield times the lowest and the highest product of the
      factors. */
  lemma AdjustmentBounds(input: YieldInput, jitter: real)
    requires input.fertiliser >= 0.0 && input.pesticide >= 0.0
    requires ValidJitter(jitter)
    ensures Product(LowFactors) <= Adjustment(input, jitter) <= Product(HighFactors)
  {
    ProductWithin(Multipliers(FactorsOf(input, jitter)), LowFactors, HighFactors);
  }

  /** More fertiliser never lowers the product of the factors. */
  lemma AdjustmentMonotoneInFertiliser(input: YieldInput, f1: real, f2: real, jitter: real)
    requires f1 <= f2
    requires input.pesticide >= 0.0
    requires ValidJitter(jitter)
    ensures Adjustment(input.(fertiliser := f1), jitter) <= Adjustment(input.(fertiliser := f2), jitter)
  {
    var m := Multipliers(FactorsOf(input.(fertiliser := f1), jitter));
    FertiliserFactorMonotone(f1, f2);
    assert Multipliers(FactorsOf(input.(fertiliser := f2), jitter)) == m[3 := FertiliserFactor(f2)];
    ProductMonotoneAt(m, 3, FertiliserFactor(f2));
  }

  /** More fertiliser never lowers the estimate, everything else fixed. */
  lemma YieldMonotoneInFertiliser(info: CropInfo, input: YieldInput, f1: real, f2: real, jitter: real)
    requires info.baseYield > 0.0
    requires f1 <= f2
    requires input.pesticide >= 0.0
    requires ValidJitter(jitter)
    ensures UnroundedYield(info, input.(fertiliser := f1), jitter) <= UnroundedYield(info, input.(fertiliser := f2), jitter)
  {
    AdjustmentMonotoneInFertiliser(input, f1, f2, jitter);
    MulMonotone(info.baseYield, Adjustment(input.(fertiliser := f1), jitter),
      Adjustment(input.(fertiliser := f2), jitter));
  }

  /** What the yield panel shows. */
  datatype YieldEstimate = YieldEstimate(perHectare: real, total: real, gaugePct: int)

  /** The rounding and display steps of `renderYieldResult`, for an
      unrounded yield `y`: tonnes per hectare to two decimals, the total for
      the area to one decimal, and the gauge percentage against 1.6 times
      the base yield, capped at 100. */
  function RoundEstimate(y: real, area: real, base: real): (e: YieldEstimate)
    requires base > 0.0
    ensures Abs(e.perHectare - y) <= 0.005
    ensures (e.perHectare * 100.0).Floor as real == e.perHectare * 100.0
    ensures Abs(e.total - e.perHectare * area) <= 0.05
    ensures (e.total * 10.0).Floor as real == e.total * 10.0
    ensures e.gaugePct <= 100
    ensures e.perHectare >= 0.0 ==> e.gaugePct >= 0
    ensures e.perHectare >= base * 1.6 ==> e.gaugePct == 100
    ensures e.gaugePct < 100 ==> Abs(e.gaugePct as real - e.perHectare / (base * 1.6) * 100.0) <= 0.5
    ensures Abs(e.gaugePct as real - Min(100.0, e.perHectare / (base * 1.6) * 100.0)) <= 0.5
  {
    var perHectare := RoundHalfUp(y * 100.0) as real / 100.0;
    var total := RoundHalfUp(perHectare * area * 10.0) as real / 10.0;
    var maxYield := base * 1.6;
    var ratio := perHectare / maxYield;
    assert perHectare >= 0.0 ==> ratio >= 0.0;
    assert perHectare >= maxYield ==> ratio >= 1.0;
    var gauge := MinInt(100, RoundHalfUp(ratio * 100.0));
    YieldEstimate(perHectare, total, gauge)
  }

  /** `renderYieldResult` without the page updates, for the crop's table
      entry `info`. For non-negative fertiliser and pesticide the shown
      yield lies within the extreme products of the factors times the base
      yield, up to the rounding. */
  function EstimateYield(info: CropInfo, input: YieldInput, jitter: real): (e: YieldEstimate)
    requires info.baseYield > 0.0
    ensures Abs(e.perHectare - UnroundedYield(info, input, jitter)) <= 0.005
    ensures (e.perHectare * 100.0).Floor as real == e.perHectare * 100.0
    ensures Abs(e.total - e.perHectare * input.area) <= 0.05
    ensures (e.total * 10.0).Floor as real == e.total * 10.0
    ensures e.gaugePct <= 100
    ensures e.perHectare >= info.baseYield * 1.6 ==> e.gaugePct == 100
    ensures e.gaugePct < 100 ==>
      Abs(e.gaugePct as real - e.perHectare / (info.baseYield * 1.6) * 100.0) <= 0.5
    ensures Abs(e.gaugePct as real - Min(100.0, e.perHectare / (info.baseYield * 1.6) * 100.0)) <= 0.5
    ensures input.fertiliser >= 0.0 && input.pesticide >= 0.0 && ValidJitter(jitter) ==>
      && info.baseYield * Product(LowFactors) - 0.005 <= e.perHectare
      && e.perHectare <= info.baseYield * Product(HighFactors) + 0.005
      && 0 <= e.gaugePct
  {
    var y := UnroundedYield(info, input, jitter);
    var e := RoundEstimate(y, input.area, info.baseYield);
    if input.fertiliser >= 0.0 && input.pesticide >= 0.0 && ValidJitter(jitter) then
      YieldBounds(info, input, jitter);
      e
    else
      e
  }

  /** Scaling by a positive factor keeps a positive value between its bounds. */
  lemma ScaleBetween(k: real, lo: real, a: real, hi: real)
    requires k > 0.0 && 0.0 < lo <= a <= hi
    ensures 0.0 < k * lo <= k * a <= k * hi
  {
    MulMonotone(k, lo, a);
    MulMonotone(k, a, hi);
  }

  /** The unrounded yield scales the base yield by the extreme products. */
  lemma YieldBounds(info: CropInfo, input: YieldInput, jitter: real)
    requires info.baseYield > 0.0
    requires input.fertiliser >= 0.0 && input.pesticide >= 0.0 && ValidJitter(jitter)
    ensures info.baseYield * Product(LowFactors) <= UnroundedYield(info, input, jitter)
    ensures UnroundedYield(info, input, jitter) <= info.baseYield * Product(HighFactors)
    ensures UnroundedYield(info, input, jitter) > 0.0
  {
    AdjustmentBounds(input, jitter);
    ExtremeAdjustments();
    ScaleBetween(info.baseYield, Product(LowFactors), Adjustment(input, jitter), Product(HighFactors));
  }

  /** Rice in Punjab in the kharif season on 2 ha, with 1200 mm rain, 100 kg
      fertiliser, 10 kg pesticide, 26 °C and a jitter of exactly 1:
      3.8 × 1.20 × 1.05 × 1 × 7/6 × 1 × 1.1 = 6.1446 t/ha, shown as 6.14;
      12.3 t in total; the gauge is full. */
  lemma RicePunjabExample()
    ensures EstimateYield(InfoOrRice("rice"), YieldInput("kharif", "punjab", 2.0, 1200.0, 100.0, 10.0, 26.0), 1.0)
      == YieldEstimate(6.14, 12.3, 100)
  {
    var input := YieldInput("kharif", "punjab", 2.0, 1200.0, 100.0, 10.0, 26.0);
    FromKeyOfKey(Rice);
    assert InfoOrRice("rice").baseYield == 3.8;
    ProductOfSeven(1.2, 1.05, 1.0, 1.0 + 100.0 / 600.0, 1.0, 1.1, 1.0);
    assert Multipliers(FactorsOf(input, 1.0)) == [1.2, 1.05, 1.0, 1.0 + 100.0 / 600.0, 1.0, 1.1, 1.0];
    assert UnroundedYield(InfoOrRice("rice"), input, 1.0) == 6.1446;
    assert RoundHalfUp(614.46) == 614;
    assert RoundHalfUp(122.8) == 123;
    assert RoundHalfUp(6.14 / 6.08 * 100.0) == 101;
  }

  /** Rice in Rajasthan in the zaid season on 1 ha, with 1200 mm rain, no
      fertiliser or pesticide, 26 °C and a jitter of exactly 1:
      3.8 × 0.85 × 0.9 = 2.907 t/ha, shown as 2.91; 2.9 t in total; the
      gauge shows 2.91 / 6.08, that is 48 %. */
  lemma RiceRajasthanExample()
    ensures EstimateYield(InfoOrRice("rice"), YieldInput("zaid", "rajasthan", 1.0, 1200.0, 0.0, 0.0, 26.0), 1.0)
      == YieldEstimate(2.91, 2.9, 48)
  {
    var input := YieldInput("zaid", "rajasthan", 1.0, 1200.0, 0.0, 0.0, 26.0);
    FromKeyOfKey(Rice);
    assert InfoOrRice("rice").baseYield == 3.8;
    ProductOfSeven(0.85, 0.9, 1.0, 1.0, 1.0, 1.0, 1.0);
    assert Multipliers(FactorsOf(input, 1.0)) == [0.85, 0.9, 1.0, 1.0, 1.0, 1.0, 1.0];
    assert UnroundedYield(InfoOrRice("rice"), input, 1.0) == 2.907;
    assert RoundHalfUp(290.7) == 291;
    assert RoundHalfUp(29.1) == 29;
    assert RoundHalfUp(2.91 / 6.08 * 100.0) == 48;
  }

  /** `STATE_FACTOR[state] >= 1.1`; an unknown state compares `undefined`,
      which is false. */
  predicate FavouredState(state: string) {
    state in StateFactors && StateFactors[state] >= 1.1
  }

  /** Only Haryana and Punjab count as historically high-yielding. */
  lemma FavouredStates(state: string)
    ensures FavouredState(state) <==> state == "haryana" || state == "punjab"
  {
  }

  /** One line of the insight list; the message text is left out. */
  datatype Insight =
    | HighFertiliser
    | LowFertiliser
    | HeavyRain
    | LowRain
    | HotWeather(temp: real)
    | CoolWeather(temp: real)
    | FavouredRegion(state: string, crop: string)
    | Favourable(crop: string, season: string)
    | PredictedYield(perHectare: real)

  /** The order in which the rules are written. */
  function Rank(i: Insight): nat {
    match i
    case HighFertiliser => 0
    case LowFertiliser => 1
    case HeavyRain => 2
    case LowRain => 3
    case HotWeather(_) => 4
    case CoolWeather(_) => 5
    case FavouredRegion(_, _) => 6
    case Favourable(_, _) => 7
    case PredictedYield(_) => 8
  }

  /** Some threshold rule applies. */
  predicate AnyRuleFires(rainfall: real, fertiliser: real, temp: real, state: string) {
    fertiliser > 300.0 || fertiliser < 50.0 || rainfall > 2500.0 || rainfall < 300.0
    || temp > 35.0 || temp < 18.0 || FavouredState(state)
  }

  /** Every insight ranks below `k`. */
  predicate RanksBelow(r: seq<Insight>, k: nat) {
    forall i :: 0 <= i < |r| ==> Rank(r[i]) < k
  }

  predicate RankSorted(r: seq<Insight>) {
    forall i, j :: 0 <= i < j < |r| ==> Rank(r[i]) < Rank(r[j])
  }

  /** The seven threshold rules of `buildInsights` as (condition, insight)
      pairs, in the order they are written. */
  function RuleTable(crop: string, rainfall: real, fertiliser: real, temp: real, state: string): (t: seq<(bool, Insight)>)
    ensures |t| == 7
    ensures RanksAreIndices(t)
  {
    [ (fertiliser > 300.0, HighFertiliser),
      (fertiliser < 50.0, LowFertiliser),
      (rainfall > 2500.0, HeavyRain),
      (rainfall < 300.0, LowRain),
      (temp > 35.0, HotWeather(temp)),
      (temp < 18.0, CoolWeather(temp)),
      (FavouredState(state), FavouredRegion(state, crop)) ]
  }

  /** Rule `k` of a table yields an insight of rank `k`. */
  predicate RanksAreIndices(t: seq<(bool, Insight)>) {
    forall k :: 0 <= k < |t| ==> Rank(t[k].1) == k
  }

  /** The insights of the rules whose condition holds, in table order: a
      run of `if (cond) insights.push(x)` statements. */
  function Fired(t: seq<(bool, Insight)>): (r: seq<Insight>)
    ensures |r| <= |t|
    decreases |t|
  {
    if t == [] then []
    else Fired(t[..|t| - 1]) + (if t[|t| - 1].0 then [t[|t| - 1].1] else [])
  }

  lemma {:induction false} FiredAppend(a: seq<(bool, Insight)>, b: seq<(bool, Insight)>)
    ensures Fired(a + b) == Fired(a) + Fired(b)
    decreases |b|
  {
    if b != [] {
      var n := |b| - 1;
      assert (a + b)[..|a + b| - 1] == a + b[..n];
      assert (a + b)[|a + b| - 1] == b[n];
      FiredAppend(a, b[..n]);
      assert Fired(a + b) == Fired(a + b[..n]) + (if b[n].0 then [b[n].1] else []);
      assert Fired(b) == Fired(b[..n]) + (if b[n].0 then [b[n].1] else []);
    } else {
      assert a + b == a;
    }
  }

  /** The rules fire in rank order and stay below the table length. */
  lemma {:induction false} FiredSorted(t: seq<(bool, Insight)>)
    requires RanksAreIndices(t)
    ensures RankSorted(Fired(t)) && RanksBelow(Fired(t), |t|)
    decreases |t|
  {
    if t != [] {
      var n := |t| - 1;
      assert RanksAreIndices(t[..n]);
      FiredSorted(t[..n]);
    }
  }

  /** A rule's insight is in the list exactly when its condition holds. */
  lemma {:induction false} FiredMember(t: seq<(bool, Insight)>, k: nat)
    requires RanksAreIndices(t) && k < |t|
    ensures t[k].1 in Fired(t) <==> t[k].0
    decreases |t|
  {
    var n := |t| - 1;
    assert RanksAreIndices(t[..n]);
    FiredSorted(t[..n]);
    if k < n {
      FiredMember(t[..n], k);
      assert Rank(t[k].1) != Rank(t[n].1);
    }
  }

  /** Nothing fires exactly when every condition is false. */
  lemma {:induction false} FiredEmpty(t: seq<(bool, Insight)>)
    ensures Fired(t) == [] <==> forall k :: 0 <= k < |t| ==> !t[k].0
    decreases |t|
  {
    if t != [] {
      var n := |t| - 1;
      FiredEmpty(t[..n]);
      assert forall k :: 0 <= k < n ==> t[..n][k] == t[k];
    }
  }

  /** Of two mutually exclusive rules at most one fires. */
  lemma ExclusivePair(x: (bool, Insight), y: (bool, Insight))
    requires !(x.0 && y.0)
    ensures |Fired([x, y])| <= 1
  {
    assert [x, y][..1] == [x];
    assert [x][..0] == [];
  }

  /** Of seven rules in three mutually exclusive pairs and one more, at
      most four fire. */
  lemma AtMostFour(t: seq<(bool, Insight)>)
    requires |t| == 7
    requires !(t[0].0 && t[1].0) && !(t[2].0 && t[3].0) && !(t[4].0 && t[5].0)
    ensures |Fired(t)| <= 4
  {
    assert t == t[..2] + t[2..4] + t[4..6] + t[6..];
    FiredAppend(t[..2] + t[2..4] + t[4..6], t[6..]);
    FiredAppend(t[..2] + t[2..4], t[4..6]);
    FiredAppend(t[..2], t[2..4]);
    ExclusivePair(t[0], t[1]);
    assert t[..2] == [t[0], t[1]];
    ExclusivePair(t[2], t[3]);
    assert t[2..4] == [t[2], t[3]];
    ExclusivePair(t[4], t[5]);
    assert t[4..6] == [t[4], t[5]];
  }

  /** The insights of the threshold rules that fire, in order; the
      fertiliser, rainfall and temperature rules come in mutually exclusive
      pairs, so at most four fire. */
  function Rules(crop: string, rainfall: real, fertiliser: real, temp: real, state: string): (r: seq<Insight>)
    ensures RankSorted(r) && RanksBelow(r, 7)
    ensures |r| <= 4
    ensures r == [] <==> !AnyRuleFires(rainfall, fertiliser, temp, state)
  {
    var t := RuleTable(crop, rainfall, fertiliser, temp, state);
    FiredSorted(t);
    FiredEmpty(t);
    AtMostFour(t);
    assert t[0].0 == (fertiliser > 300.0) && t[1].0 == (fertiliser < 50.0);
    assert t[2].0 == (rainfall > 2500.0) && t[3].0 == (rainfall < 300.0);
    assert t[4].0 == (temp > 35.0) && t[5].0 == (temp < 18.0) && t[6].0 == FavouredState(state);
    assert !AnyRuleFires(rainfall, fertiliser, temp, state) <==> forall k :: 0 <= k < |t| ==> !t[k].0;
    Fired(t)
  }

  /** `buildInsights`: the threshold rules in order, the favourable message
      exactly when none applies, and the predicted-yield line last; between
      2 and 5 lines. */
  function BuildInsights(crop: string, perHectare: real, rainfall: real, fertiliser: real,
                         temp: real, state: string, season: string): (r: seq<Insight>)
    ensures 2 <= |r| <= 5
    ensures r[|r| - 1] == PredictedYield(perHectare)
    ensures RankSorted(r)
    ensures Favourable(crop, season) in r <==> !AnyRuleFires(rainfall, fertiliser, temp, state)
  {
    var rules := Rules(crop, rainfall, fertiliser, temp, state);
    var body := if rules == [] then [Favourable(crop, season)] else rules;
    assert RankSorted(body) && RanksBelow(body, 8);
    body + [PredictedYield(perHectare)]
  }

  /** The insights `renderYieldResult` shows for a crop and a form: built
      from the crop's estimate, so the last line carries the shown yield,
      two-decimal and within 0.005 of the unrounded one. */
  function ResultInsights(crop: string, input: YieldInput, jitter: real): (r: seq<Insight>)
    ensures 2 <= |r| <= 5
    ensures r[|r| - 1].PredictedYield?
    ensures r[|r| - 1].perHectare == EstimateYield(InfoOrRice(crop), input, jitter).perHectare
    ensures Abs(r[|r| - 1].perHectare - UnroundedYield(InfoOrRice(crop), input, jitter)) <= 0.005
    ensures (r[|r| - 1].perHectare * 100.0).Floor as real == r[|r| - 1].perHectare * 100.0
    ensures Favourable(crop, input.season) in r <==>
      !AnyRuleFires(input.rainfall, input.fertiliser, input.temp, input.state)
  {
    var e := EstimateYield(InfoOrRice(crop), input, jitter);
    BuildInsights(crop, e.perHectare, input.rainfall, input.fertiliser, input.temp, input.state, input.season)
  }

  /** Each threshold rule's line is shown exactly when its condition holds. */
  lemma InsightsFollowRules(crop: string, perHectare: real, rainfall: real, fertiliser: real,
                            temp: real, state: string, season: string, k: nat)
    requires k < 7
    ensures var rule := RuleTable(crop, rainfall, fertiliser, temp, state)[k];
      rule.1 in BuildInsights(crop, perHectare, rainfall, fertiliser, temp, state, season) <==> rule.0
  {
    var t := RuleTable(crop, rainfall, fertiliser, temp, state);
    FiredMember(t, k);
    assert Rank(t[k].1) == k;
  }

  /** The rule table spelled out: high fertiliser above 300 kg, low below
      50 kg, heavy rain above 2500 mm, low rain below 300 mm, heat above
      35 °C, cool below 18 °C, and a historically high-yielding state. */
  lemma InsightThresholds(crop: string, perHectare: real, rainfall: real, fertiliser: real,
                          temp: real, state: string, season: string)
    ensures var r := BuildInsights(crop, perHectare, rainfall, fertiliser, temp, state, season);
      && (HighFertiliser in r <==> fertiliser > 300.0)
      && (LowFertiliser in r <==> fertiliser < 50.0)
      && (HeavyRain in r <==> rainfall > 2500.0)
      && (LowRain in r <==> rainfall < 300.0)
      && (HotWeather(temp) in r <==> temp > 35.0)
      && (CoolWeather(temp) in r <==> temp < 18.0)
      && (FavouredRegion(state, crop) in r <==> state == "haryana" || state == "punjab")
  {
    FavouredStates(state);
    InsightsFollowRules(crop, perHectare, rainfall, fertiliser, temp, state, season, 0);
    InsightsFollowRules(crop, perHectare, rainfall, fertiliser, temp, state, season, 1);
    InsightsFollowRules(crop, perHectare, rainfall, fertiliser, temp, state, season, 2);
    InsightsFollowRules(crop, perHectare, rainfall, fertiliser, temp, state, season, 3);
    InsightsFollowRules(crop, perHectare, rainfall, fertiliser, temp, state, season, 4);
    InsightsFollowRules(crop, perHectare, rainfall, fertiliser, temp, state, season, 5);
    InsightsFollowRules(crop, perHectare, rainfall, fertiliser, temp, state, season, 6);
  }

  /** `updatePH`: the position of the pH marker on a 3.5 to 9.5 scale, as a
      percentage clamped to [0, 100]. */
  function PhIndicatorLeft(ph: real): (pct: real)
    ensures 0.0 <= pct <= 100.0
    ensures 3.5 <= ph <= 9.5 ==> pct == (ph - 3.5) / 6.0 * 100.0
    ensures ph <= 3.5 ==> pct == 0.0
    ensures ph >= 9.5 ==> pct == 100.0
  {
    Clamp(((ph - 3.5) / (9.5 - 3.5)) * 100.0, 0.0, 100.0)
  }

  lemma PhIndicatorMonotone(a: real, b: real)
    requires a <= b
    ensures PhIndicatorLeft(a) <= PhIndicatorLeft(b)
  {
  }
}

=== FILE: yield_service.dfy ===
/** The yield-prediction endpoint of the Python backend: the fuzzy lookup
    `find_closest` and the decisions `predict` takes before and after the
    model call.

    The form is a map from field names to the submitted text; a missing
    field reads as the empty string. Parsing a number (`float`) and the
    pickled preprocessor and model are parameters: `parse` yields `None`
    where `float` raises `ValueError`, and `model` yields `None` where the
    transform or the prediction raises.
 */
module YieldService {
  import opened Numeric
  import opened Text

  // ---------------------------------------------------------------------
  // find_closest

  /** The lower-cased valid list (`VALID_AREAS`, `VALID_ITEMS`). */
  function LowerAll(xs: seq<string>): (r: seq<string>)
    ensures |r| == |xs|
    ensures forall i :: 0 <= i < |xs| ==> r[i] == Lower(xs[i])
  {
    seq(|xs|, i requires 0 <= i < |xs| => Lower(xs[i]))
  }

  /** What the user typed, as `find_closest` compares it. */
  function Query(input: string): string {
    Lower(Strip(input))
  }

  /** `q in v or v in q`: one string contains the other. */
  predicate Related(q: string, v: string) {
    Contains(v, q) || Contains(q, v)
  }

  /** `list.index(q)` from position `from` on: the first equal entry. */
  function FirstEqual(xs: seq<string>, q: string, from: nat): (r: Option<nat>)
    requires from <= |xs|
    ensures r.Some? ==> from <= r.value < |xs| && xs[r.value] == q
    ensures r.Some? ==> forall j :: from <= j < r.value ==> xs[j] != q
    ensures r.None? ==> forall j :: from <= j < |xs| ==> xs[j] != q
    decreases |xs| - from
  {
    if from == |xs| then None
    else if xs[from] == q then Some(from)
    else FirstEqual(xs, q, from + 1)
  }

  /** The scan for a partial match from position `from` on: the first entry
      related to the query. */
  function FirstRelated(xs: seq<string>, q: string, from: nat): (r: Option<nat>)
    requires from <= |xs|
    ensures r.Some? ==> from <= r.value < |xs| && Related(q, xs[r.value])
    ensures r.Some? ==> forall j :: from <= j < r.value ==> !Related(q, xs[j])
    ensures r.None? ==> forall j :: from <= j < |xs| ==> !Related(q, xs[j])
    decreases |xs| - from
  {
    if from == |xs| then None
    else if Related(q, xs[from]) then Some(from)
    else FirstRelated(xs, q, from + 1)
  }

  /** The position `find_closest` picks: the first exact (case-insensitive)
      match if there is one, otherwise the first entry that contains the
      query or is contained in it. */
  function ClosestIndex(input: string, original: seq<string>): (r: Option<nat>)
    ensures r.Some? ==> r.value < |original|
    ensures (exists i :: 0 <= i < |original| && Lower(original[i]) == Query(input)) ==>
      && r.Some? && Lower(original[r.value]) == Query(input)
      && forall j :: 0 <= j < r.value ==> Lower(original[j]) != Query(input)
    ensures (forall i :: 0 <= i < |original| ==> Lower(original[i]) != Query(input)) ==>
      && (r.Some? <==> exists i :: 0 <= i < |original| && Related(Query(input), Lower(original[i])))
      && (r.Some? ==> Related(Query(input), Lower(original[r.value])))
      && (r.Some? ==> forall j :: 0 <= j < r.value ==> !Related(Query(input), Lower(original[j])))
  {
    var lower := LowerAll(original);
    var q := Query(input);
    match FirstEqual(lower, q, 0)
    case Some(i) => Some(i)
    case None => FirstRelated(lower, q, 0)
  }

  /** `find_closest(user_input, [v.lower() for v in original], original)`. */
  function FindClosest(input: string, original: seq<string>): (r: Option<string>)
    ensures r.Some? ==> r.value in original
    ensures r.Some? <==> ClosestIndex(input, original).Some?
    ensures r.Some? ==> r.value == original[ClosestIndex(input, original).value]
  {
    match ClosestIndex(input, original)
    case Some(i) => Some(original[i])
    case None => None
  }

  /** The lookup fails exactly when no entry equals, contains or is
      contained in the query. */
  lemma FindClosestNoneIff(input: string, original: seq<string>)
    ensures FindClosest(input, original).None? <==>
      forall i :: 0 <= i < |original| ==> !Related(Query(input), Lower(original[i]))
  {
    var q := Query(input);
    forall i | 0 <= i < |original| && Lower(original[i]) == q
      ensures Related(q, Lower(original[i]))
    {
      ContainsSelfAndEmpty(q);
    }
  }

  /** An exact match wins over any partial match before it: the result is
      the entry at the first position whose lower-cased form is the query. */
  lemma ExactMatchWins(input: string, original: seq<string>, k: nat)
    requires k < |original| && Lower(original[k]) == Query(input)
    requires forall j :: 0 <= j < k ==> Lower(original[j]) != Query(input)
    ensures FindClosest(input, original) == Some(original[k])
  {
    var r := ClosestIndex(input, original);
    assert r.Some? && Lower(original[r.value]) == Query(input);
  }

  /** Without an exact match, the first entry that contains the query or is
      contained in it wins, whatever related entries follow it. */
  lemma PartialMatchWins(input: string, original: seq<string>, k: nat)
    requires forall i :: 0 <= i < |original| ==> Lower(original[i]) != Query(input)
    requires k < |original| && Related(Query(input), Lower(original[k]))
    requires forall j :: 0 <= j < k ==> !Related(Query(input), Lower(original[j]))
    ensures FindClosest(input, original) == Some(original[k])
  {
    var r := ClosestIndex(input, original);
    assert r.Some? && Related(Query(input), Lower(original[r.value]));
  }

  /** An empty query relates to every entry, so without an empty entry the
      first entry is returned: the reason `predict` must reject empty
      fields before it looks anything up. */
  lemma EmptyQueryTakesFirst(input: string, original: seq<string>)
    requires Query(input) == "" && |original| > 0
    requires forall i :: 0 <= i < |original| ==> Lower(original[i]) != ""
    ensures FindClosest(input, original) == Some(original[0])
  {
    ContainsSelfAndEmpty(Lower(original[0]));
    assert Related(Query(input), Lower(original[0]));
  }

  /** Surrounding whitespace and letter case do not change the lookup. */
  lemma QueryNormalises(input: string)
    ensures Query(Strip(input)) == Query(input)
    ensures Query(Lower(input)) == Lower(Query(input))
  {
    StripIdempotent(input);
    LowerIdempotent(Strip(input));
    StripLower(input);
  }

  /** Two strings of one length with whitespace at the same positions. */
  predicate SameSpaces(a: string, b: string) {
    |a| == |b| && forall i :: 0 <= i < |a| ==> (IsSpace(a[i]) <==> IsSpace(b[i]))
  }

  /** Lower-casing keeps whitespace where it is, so it commutes with
      stripping. */
  lemma StripLower(s: string)
    ensures Strip(Lower(s)) == Lower(Strip(s))
  {
    var l := Lower(s);
    assert SameSpaces(s, l);
    SkipSpaceSame(s, l, 0);
    var a := SkipSpace(s, 0);
    SkipSpaceBackSame(s, l, a, |s|);
    LowerSlice(s, a, SkipSpaceBack(s, a, |s|));
  }

  lemma LowerSlice(s: string, i: nat, j: nat)
    requires i <= j <= |s|
    ensures Lower(s)[i..j] == Lower(s[i..j])
  {
    assert forall k :: 0 <= k < j - i ==> Lower(s)[i..j][k] == Lower(s[i..j])[k];
  }

  lemma {:induction false} SkipSpaceSame(s: string, t: string, i: nat)
    requires SameSpaces(s, t) && i <= |s|
    ensures SkipSpace(s, i) == SkipSpace(t, i)
    decreases |s| - i
  {
    if i < |s| && IsSpace(s[i]) {
      SkipSpaceSame(s, t, i + 1);
    }
  }

  lemma {:induction false} SkipSpaceBackSame(s: string, t: string, lo: nat, j: nat)
    requires SameSpaces(s, t) && lo <= j <= |s|
    ensures SkipSpaceBack(s, lo, j) == SkipSpaceBack(t, lo, j)
    decreases j - lo
  {
    if lo < j && IsSpace(s[j - 1]) {
      SkipSpaceBackSame(s, t, lo, j - 1);
    }
  }

  // ---------------------------------------------------------------------
  // predict

  /** The six submitted fields; a field the request lacks is `None`. */
  datatype Form = Form(
    year: Option<string>, rainfall: Option<string>, pesticides: Option<string>,
    temperature: Option<string>, area: Option<string>, item: Option<string>)

  /** `request.form.get(name, '').strip()`. */
  function Field(f: Option<string>): (s: string)
    ensures f.None? ==> s == ""
    ensures f.Some? ==> s == Strip(f.value)
  {
    Strip(match f case None => "" case Some(text) => text)
  }

  datatype PredictError =
    | MissingFields
      /** The area as typed, and the first ten supported areas. */
    | AreaNotFound(area: string, listed: seq<string>)
      /** The crop as typed, and all supported crops. */
    | ItemNotFound(item: string, listed: seq<string>)
      /** The first numeric field `float` rejects. */
    | InvalidNumber(text: string)
    | PredictionFailed

  datatype Outcome =
    | Failure(error: PredictError)
    | Success(yieldHg: real, yieldKg: real, area: string, item: string)

  /** Python truthiness of a lookup result: `None` and `''` are false. */
  predicate Found(r: Option<string>) {
    r.Some? && r.value != ""
  }

  /** Every required field is non-empty after stripping. */
  predicate AllPresent(form: Form) {
    && Field(form.year) != "" && Field(form.rainfall) != ""
    && Field(form.pesticides) != "" && Field(form.temperature) != ""
    && Field(form.area) != "" && Field(form.item) != ""
  }

  /** The texts of the numeric fields, in the order they are converted. */
  function NumericTexts(form: Form): (ts: seq<string>)
    ensures |ts| == 4
  {
    [Field(form.year), Field(form.rainfall),
     Field(form.pesticides), Field(form.temperature)]
  }

  /** The numbers of the numeric fields, or the first text that does not
      parse. */
  function ParseAll(texts: seq<string>, parse: string -> Option<real>): (r: Result)
    ensures r.Parsed? ==> |r.values| == |texts|
    ensures r.Parsed? ==> forall i :: 0 <= i < |texts| ==> parse(texts[i]) == Some(r.values[i])
    ensures r.Parsed? <==> forall i :: 0 <= i < |texts| ==> parse(texts[i]).Some?
    ensures r.Rejected? ==>
      exists i :: (0 <= i < |texts| && texts[i] == r.text && parse(texts[i]).None?
                   && forall j :: 0 <= j < i ==> parse(texts[j]).Some?)
    decreases |texts|
  {
    if texts == [] then Parsed([])
    else
      match parse(texts[0])
      case None => Rejected(texts[0])
      case Some(x) =>
        var rest := ParseAll(texts[1..], parse);
        if rest.Rejected? then
          ghost var i :| 0 <= i < |texts| - 1 && texts[1..][i] == rest.text && parse(texts[1..][i]).None?
            && forall j :: 0 <= j < i ==> parse(texts[1..][j]).Some?;
          assert texts[i + 1] == rest.text;
          rest
        else
          Parsed([x] + rest.values)
  }

  datatype Result = Parsed(values: seq<real>) | Rejected(text: string)

  /** hg/ha to kg/ha, rounded to two decimals as the response reports it. */
  function HgToKg(hg: real): (kg: real)
    ensures Abs(kg - hg / 10.0) <= 0.005
    ensures Abs(kg * 10.0 - hg) <= 0.05
    ensures (kg * 100.0).Floor as real == kg * 100.0
    ensures Abs(kg - hg / 10.0) == 0.005 ==> IsEven((kg * 100.0).Floor)
  {
    RoundTo2(hg / 10.0)
  }

  /** The conversions and the model call of `predict`: `float` on the four
      numeric texts in order, the first failure reported; then the model,
      whose figure in hg/ha is reported with its kg/ha equivalent hg/10,
      both rounded to two decimals. */
  function Convert(texts: seq<string>, area: string, item: string,
                   parse: string -> Option<real>,
                   model: (seq<real>, string, string) -> Option<real>): (o: Outcome)
    ensures o.Success? <==>
      && (forall i :: 0 <= i < |texts| ==> parse(texts[i]).Some?)
      && model(ParseAll(texts, parse).values, area, item).Some?
    ensures o.Success? ==>
      var hg := model(ParseAll(texts, parse).values, area, item).value;
      && o.area == area && o.item == item
      && o.yieldHg == RoundTo2(hg) && o.yieldKg == HgToKg(hg)
    ensures o.Failure? ==> o.error.InvalidNumber? || o.error == PredictionFailed
    ensures o.Failure? && o.error.InvalidNumber? ==>
      exists i :: (0 <= i < |texts| && texts[i] == o.error.text && parse(texts[i]).None?
                   && forall j :: 0 <= j < i ==> parse(texts[j]).Some?)
  {
    match ParseAll(texts, parse)
    case Rejected(text) => Failure(InvalidNumber(text))
    case Parsed(values) =>
      match model(values, area, item)
      case None => Failure(PredictionFailed)
      case Some(hg) => Success(RoundTo2(hg), HgToKg(hg), area, item)
  }

  /** The lookups of `predict`: an unknown area is reported before the crop
      is looked at; with both found, the conversions run on the matched
      entries. */
  function Lookup(area: string, item: string, texts: seq<string>,
                  areas: seq<string>, items: seq<string>,
                  parse: string -> Option<real>,
                  model: (seq<real>, string, string) -> Option<real>): (o: Outcome)
    ensures !Found(FindClosest(area, areas)) ==>
      o == Failure(AreaNotFound(area, areas[..MinInt(10, |areas|)]))
    ensures Found(FindClosest(area, areas)) && !Found(FindClosest(item, items)) ==>
      o == Failure(ItemNotFound(item, items))
    ensures o.Success? <==>
      && Found(FindClosest(area, areas)) && Found(FindClosest(item, items))
      && Convert(texts, FindClosest(area, areas).value, FindClosest(item, items).value, parse, model).Success?
    ensures o.Success? ==> o.area in areas && o.item in items
    ensures o != Failure(MissingFields)
    ensures Found(FindClosest(area, areas)) && Found(FindClosest(item, items)) ==>
      o == Convert(texts, FindClosest(area, areas).value, FindClosest(item, items).value, parse, model)
  {
    var matchedArea := FindClosest(area, areas);
    var matchedItem := FindClosest(item, items);
    if !Found(matchedArea) then
      Failure(AreaNotFound(area, areas[..MinInt(10, |areas|)]))
    else if !Found(matchedItem) then
      Failure(ItemNotFound(item, items))
    else
      Convert(texts, matchedArea.value, matchedItem.value, parse, model)
  }

  /** `predict`: the required fields are checked first, before any lookup. */
  function Predict(form: Form, areas: seq<string>, items: seq<string>,
                   parse: string -> Option<real>,
                   model: (seq<real>, string, string) -> Option<real>): (o: Outcome)
    ensures !AllPresent(form) <==> o == Failure(MissingFields)
  {
    if !AllPresent(form) then
      Failure(MissingFields)
    else
      Lookup(Field(form.area), Field(form.item), NumericTexts(form), areas, items, parse, model)
  }

  /** The lookups only ever see non-empty queries: once the required-field
      check has passed, neither the area nor the crop query is empty. */
  lemma LookupQueriesNonEmpty(form: Form)
    requires AllPresent(form)
    ensures Query(Field(form.area)) != "" && Query(Field(form.item)) != ""
  {
    if form.area.Some? {
      StripIdempotent(form.area.value);
    }
    if form.item.Some? {
      StripIdempotent(form.item.value);
    }
  }

  /** With every field present, an unknown area is reported whatever the
      crop, and an unknown crop only once the area is found. */
  lemma AreaBeforeItem(form: Form, areas: seq<string>, items: seq<string>,
                       parse: string -> Option<real>,
                       model: (seq<real>, string, string) -> Option<real>)
    requires AllPresent(form)
    ensures !Found(FindClosest(Field(form.area), areas)) ==>
      Predict(form, areas, items, parse, model) ==
        Failure(AreaNotFound(Field(form.area), areas[..MinInt(10, |areas|)]))
    ensures var p := Predict(form, areas, items, parse, model);
      p.Failure? && p.error.ItemNotFound? ==> Found(FindClosest(Field(form.area), areas))
  {
  }

  /** A prediction succeeds exactly when every field is present, both
      lookups find a non-empty entry, every numeric field parses and the
      model answers. */
  lemma PredictSuccessIff(form: Form, areas: seq<string>, items: seq<string>,
                          parse: string -> Option<real>,
                          model: (seq<real>, string, string) -> Option<real>)
    ensures Predict(form, areas, items, parse, model).Success? <==>
      && AllPresent(form)
      && Found(FindClosest(Field(form.area), areas))
      && Found(FindClosest(Field(form.item), items))
      && (forall i :: 0 <= i < 4 ==> parse(NumericTexts(form)[i]).Some?)
      && model(ParseAll(NumericTexts(form), parse).values, FindClosest(Field(form.area), areas).value,
               FindClosest(Field(form.item), items).value).Some?
  {
    if AllPresent(form) {
      var area, item, texts := Field(form.area), Field(form.item), NumericTexts(form);
      assert Predict(form, areas, items, parse, model) == Lookup(area, item, texts, areas, items, parse, model);
    }
  }

  /** A successful prediction names the matched area and crop, and reports
      the model's figure in hg/ha and that figure divided by ten as kg/ha,
      both rounded to two decimals. */
  lemma PredictSuccessValues(form: Form, areas: seq<string>, items: seq<string>,
                             parse: string -> Option<real>,
                             model: (seq<real>, string, string) -> Option<real>)
    requires Predict(form, areas, items, parse, model).Success?
    ensures Found(FindClosest(Field(form.area), areas)) && Found(FindClosest(Field(form.item), items))
    ensures
      var o := Predict(form, areas, items, parse, model);
      && o.area == FindClosest(Field(form.area), areas).value
      && o.item == FindClosest(Field(form.item), items).value
      && model(ParseAll(NumericTexts(form), parse).values, o.area, o.item).Some?
      && o.yieldHg == RoundTo2(model(ParseAll(NumericTexts(form), parse).values, o.area, o.item).value)
      && o.yieldKg == HgToKg(model(ParseAll(NumericTexts(form), parse).values, o.area, o.item).value)
  {
    var area, item, texts := Field(form.area), Field(form.item), NumericTexts(form);
    var o := Predict(form, areas, items, parse, model);
    assert o == Lookup(area, item, texts, areas, items, parse, model);
    var ma, mi := FindClosest(area, areas).value, FindClosest(item, items).value;
    var c := Convert(texts, ma, mi, parse, model);
    assert o == c;
    var hg := model(ParseAll(texts, parse).values, ma, mi).value;
  }

  /** A numeric field that does not parse is reported, the first one in
      field order, once the fields and lookups have passed. */
  lemma InvalidNumberIsFirst(form: Form, areas: seq<string>, items: seq<string>,
                             parse: string -> Option<real>,
                             model: (seq<real>, string, string) -> Option<real>)
    requires Predict(form, areas, items, parse, model).Failure?
    requires Predict(form, areas, items, parse, model).error.InvalidNumber?
    ensures AllPresent(form)
    ensures Found(FindClosest(Field(form.area), areas)) && Found(FindClosest(Field(form.item), items))
    ensures exists i :: (0 <= i < 4
      && NumericTexts(form)[i] == Predict(form, areas, items, parse, model).error.text
      && parse(NumericTexts(form)[i]).None?
      && forall j :: 0 <= j < i ==> parse(NumericTexts(form)[j]).Some?)
  {
    var area, item, texts := Field(form.area), Field(form.item), NumericTexts(form);
    assert Predict(form, areas, items, parse, model) == Lookup(area, item, texts, areas, items, parse, model);
  }
}
